=== FILE: README.md ===
# Memo workflow model

A Dafny model of the memo lifecycle of a Django back end for internal
memoranda ("memorandos"). An author (role SECONDARY_USER) writes a draft,
picks recipients and an approver, and submits it; the assigned approver
(role DIRECTOR) approves, rejects or returns it for modification; once
distributed, recipients may reply with a new draft. Every save of a memo
runs a hook that decides which people are mailed.

The model is functional: memos, users, departments and attachments are
immutable records, tables are sequences in table order, and every endpoint
is a pure function from the caller, the memo it asked for and the request
data to either an error kind or the memo (or attachment) as saved.

Modules, in dependency order:

- `Common` — `Option`, `Result`, duplicate-free sequences, an order-keeping filter.
- `Text` — Python's `str.strip()` (with Python's whitespace set) and ASCII `lower()`.
- `Accounts` — `Role`, `User`, `Departamento`, `nombre_completo`, lookups, unique constraints.
- `Memos` — the six-value `Status`, `Memo` (its recipients a duplicate-free list, as a many-to-many relation stores them), `Attachment`, the defaults of a new row.
- `Store` — the four tables together and what deleting a memo, a user or a department does to the rest.
- `Services` / `Errors` — the helpers and limits the views import but whose code is not part of this model, as parameters; the error kinds the endpoints answer with.
- `Permissions` — the four permission classes as predicates.
- `Dispatch` — how the view set admits a request: the classes `get_permissions` picks per action, the 401/403 answers, the queryset lookup (404) and the object checks.
- `Visibility` — the viewset's queryset: which memos each role reaches, with and without a `status` query parameter, and how many rows it holds for each.
- `Workflow` — submit, approve, reject, request-modification, and their endpoints.
- `Replies` — reply, including the recipient list (also as a loop, proved equal to the reference).
- `Attachments` — attachment upload.
- `Serializers` — the create and update serializers and their endpoints.
- `Signals` — the post-save notification decision, with the previous status as an argument.
- `Lifecycle` — properties spanning several endpoints and the hook.

Properties of the code as written that the proofs make explicit:

- `get_permissions` alone decides the permission classes: create checks the
  SECONDARY_USER role, update and partial update the edit permission, every
  other action only the login. The role and edit checks written on the
  decorators of submit, approve, reject, solicitar_modificaciones and
  upload_attachment are never applied (`Dispatch.DeclaredListsIgnored`), so
  these actions admit every logged-in caller whose queryset holds the memo
  once, and only their own code refuses
  (`Dispatch.MemoActionsNeedOnlyTheQueryset`).
- The default AREA_USER queryset ORs a filter through the recipients table
  with `author=user` and does not remove duplicates, so a memo the caller
  wrote comes back once per recipient (`Visibility.QueryRows`). The lookup
  of a single memo then raises instead of finding it: every action on an
  AREA_USER's own memo with two or more recipients ends in a server error.
  A reply that includes the parent's other recipients builds exactly such a
  draft (`Replies.ReplyIncludingOthersHasSeveralRecipients`), which its
  author can then neither submit, edit nor give attachments
  (`Lifecycle.AreaUserDraftWithSeveralRecipientsStuck`).
- Hence submit's author check does fire: it refuses the DIRECTOR assigned as
  approver of a draft, the only other user who reaches one
  (`Workflow.SubmitAuthorRefusalMeetsApprover`). That director may also
  attach files to the draft (`Attachments.UploadersAreAuthorOrApprover`).
- The decisions check the assigned approver, not the role: an author who
  names itself approver of a memo without department can approve it
  (`Workflow.SelfApprovalAdmitted`).
- The edit permission admits only DRAFT memos. A memo in
  MODIFICACION_SOLICITADA can be submitted again and given attachments, but
  not edited (`Lifecycle.ReturnedMemoTakesUploadsNotEdits`); a memo waiting
  for approval is refused by upload's own state check
  (`Attachments.PendingMemoRefusesUpload`).
- An author's queryset holds only its own memos, so an author can reply
  only to its own memos (`Replies.WhoCanReply`).
- An ADMIN reaches no memo at all (`Visibility.AdminReachesNothing`).
- `IsRecipientOrInvolved` refuses DISTRIBUIDO memos; no action uses it.
- The memo model class declares four statuses while the views and the hook
  use six; the model follows the views and has six (see "Left out" on the
  schema).
- create skips an approver id of 0 (a falsy value), update does not.
- The reply view calls the thread-depth, reply-count and reply-body helpers
  outside any exception handler, so one that raises ends the request with a
  server error (`Replies.ReplyTo`).
- The hook dereferences the approver of a memo entering APPROVED without a
  check; after an approval through the endpoint the approver is always the
  caller, so that never raises (`Lifecycle.ApprovalNotifiesAuthor`).

## Model

| member | source | states |
|---|---|---|
| Text.Strip | backend/memos/views.py:186-196 | The result is what remains of the input once whitespace alone is cut from both ends: an infix of the input with only whitespace before and after it, itself neither starting nor ending with whitespace, empty exactly when the input is all whitespace, and the input itself when that is already stripped |
| Text.LowerIdempotent | backend/memos/views.py:616-619 | Lower-casing a lower-cased name changes nothing, so an extension is compared once lowered |
| Accounts.NombreCompleto | backend/accounts/models.py:64-69 | With both names empty the result is the username; otherwise it is the first name, one space and the last name, stripped, so it is no longer than the joined names and empty exactly when both names are whitespace only |
| Accounts.NombreCompletoJoinsNames | backend/accounts/models.py:67-68 | With stripped non-empty first and last names the full name is first, one space, last |
| Accounts.NombreCompletoFirstNameOnly | backend/accounts/models.py:67-68 | With only a stripped first name the full name is that first name, without the trailing space |
| Accounts.NombreCompletoBlankNames | backend/accounts/models.py:67-68 | Whitespace-only names give the empty name rather than the username |
| Accounts.FindUser | backend/memos/serializers.py:119-120 | A lookup by id finds nothing exactly when no user has that id, and otherwise a user with that id |
| Accounts.ExistingIds | backend/memos/serializers.py:112-115 | Filtering users by a list of ids yields exactly the requested ids that exist, unknown ids dropped, and without duplicates when user ids are unique |
| Accounts.InsertDepartment | backend/accounts/models.py:5-8 | A department is stored exactly when its id, name and prefix are all free, and storing it keeps the uniqueness constraints |
| Accounts.InsertUser | backend/accounts/models.py:31-38 | A user is stored exactly when its id, username and e-mail are all free, and storing it keeps the uniqueness constraints |
| Memos.NameInjective | backend/memos/models.py:6-10 | Distinct statuses have distinct stored names, so a status filter selects one status |
| Memos.NewMemo | backend/memos/models.py:12-60 | A new row is a DRAFT with the given author and content, no approver and no recipients, every nullable column null (parent, department, approval and distribution times, number, seal, signed file, rejection reason, comments), the default priority and not confidential |
| Memos.AttachmentsOf | backend/memos/views.py:595 | The attachments counted for a memo are exactly those that point at it |
| Common.Dedup | backend/memos/models.py:34-39 | Storing a list into the many-to-many recipients keeps exactly the listed users, each once, and leaves a list without repeats as it is |
| Store.DeleteMemo | backend/memos/models.py:42-78 | Deleting a memo removes it and its attachments; every other memo survives with a parent link to it nulled, nothing else appears, and users and departments stay |
| Store.DeleteMemoKeepsOtherIds | backend/memos/models.py:42-49 | Deleting a memo keeps every other memo, user and department id |
| Store.DeleteMemoPreservesIntegrity | backend/memos/models.py:42-78 | Deleting a memo from a consistent database leaves it consistent |
| Store.DeleteUser | backend/memos/models.py:20-39 | Deleting a user removes it, its memos and the attachments it uploaded or that belong to its memos; every other memo survives with the user removed as approver and recipient; departments it directed lose their director |
| Store.DeleteUserUnlinks | backend/memos/models.py:20-39 | After deleting a user no remaining memo names it as author, approver or recipient, and no department as director |
| Store.DeleteUserKeepsOtherIds | backend/accounts/models.py:9-16 | Deleting a user keeps every other user id and every department id |
| Store.DeleteUserKeepsOtherMemos | backend/memos/models.py:20-25 | Deleting a user keeps the ids of every memo it did not write |
| Store.DeleteUserKeepsKeys | backend/accounts/models.py:5-38 | Deleting a user keeps the ids, usernames and e-mails of the remaining users distinct, and the ids, names and prefixes of the departments |
| Store.DeleteUserPreservesIntegrity | backend/memos/models.py:20-39 | Deleting a user from a consistent database leaves it consistent: the unique keys still hold and no reference dangles |
| Store.DeleteDepartment | backend/accounts/models.py:44-51 | Deleting a department removes it and clears it from every user; memos and attachments stay |
| Store.DeleteDepartmentKeepsKeys | backend/accounts/models.py:5-38 | Deleting a department keeps the ids, names and prefixes of the remaining departments distinct, and the ids, usernames and e-mails of the users |
| Store.DeleteDepartmentPreservesIntegrity | backend/accounts/models.py:44-51 | Deleting a department from a consistent database leaves it consistent: the unique keys still hold and no reference dangles |
| Permissions.InvolvedOnlyWhenApproved | backend/memos/permissions.py:32-38 | Involvement is refused for every status but APPROVED, DISTRIBUIDO included, and for APPROVED holds exactly for recipients and the author |
| Permissions.EditableOnlyAsDraft | backend/memos/permissions.py:45-48 | Editing is refused unless the memo is a DRAFT, and then allowed exactly to its author |
| Dispatch.ActivePermissions | backend/memos/views.py:104-117 | create gets the login and SECONDARY_USER checks, update and partial update the login and edit checks, every other action the login check alone; no action gets the director or involvement class |
| Dispatch.ViewRefusal | backend/memos/permissions.py:4-25 | The request checks pass exactly when every class grants; otherwise the answer is that of a refusing class, the first one when it refuses: not authenticated for an anonymous caller, a 403 naming the class otherwise |
| Dispatch.ObjectRefusal | backend/memos/permissions.py:28-48 | The object checks pass exactly when every class admits the memo; otherwise the answer is a 403 of a class that refuses it |
| Dispatch.Admit | backend/memos/views.py:104-117 | A collection action admits exactly the requests every active class grants, and answers an anonymous caller not authenticated |
| Dispatch.AdmitOn | backend/memos/views.py:48-117 | An action on a memo answers an anonymous caller not authenticated, a caller whose queryset lacks the memo not found and one whose queryset holds it several times a server error, and admits exactly a caller who passes the request checks, finds the memo exactly once and passes every object check |
| Dispatch.CreateAloneChecksRole | backend/memos/views.py:104-117 | Every action but create admits exactly the logged-in callers; create admits exactly SECONDARY_USER callers and answers other logged-in callers with a 403 |
| Dispatch.MemoActionsNeedOnlyTheQueryset | backend/memos/views.py:104-117 | Every action on a memo other than update admits exactly a logged-in caller whose queryset holds the memo exactly once; it answers not found when the queryset lacks it and a server error when it holds it several times |
| Dispatch.EditNeedsEditableDraft | backend/memos/views.py:110-111 | Update admits exactly a logged-in caller whose queryset holds the memo once and who may edit it; a caller who finds it once but may not edit it gets a 403, and a memo held several times is a server error before the edit permission is asked |
| Dispatch.DeclaredListsIgnored | backend/memos/views.py:104-117 | For every action with its own decorator list the active list is the login check alone, so each role or edit check named on submit, approve, reject, solicitar_modificaciones and upload_attachment is dropped |
| Visibility.NarrowingPinsStatus | backend/memos/views.py:48-92 | A recognised status parameter restricts the queryset to memos in exactly the status it names |
| Visibility.ParamOnlyNarrows | backend/memos/views.py:48-100 | A status parameter never lets a caller reach a memo the default queryset hides |
| Visibility.AdminReachesNothing | backend/memos/views.py:100-102 | An ADMIN, which no role branch of the queryset handles, reaches no memo |
| Visibility.ReachByRole | backend/memos/views.py:48-100 | An author reaches only its own memos, an area user only memos it received or wrote, a director only memos it approves or pending ones of its department |
| Visibility.QueryRows | backend/memos/views.py:94-102 | Counting the rows the filters select, the queryset holds a memo at least once exactly when the caller reaches it, and more than once exactly for an AREA_USER without a status filter on a memo it wrote with two or more recipients, which then comes back once per recipient |
| Workflow.SubmitRefusal | backend/memos/views.py:162-238 | The checks before numbering pass exactly when the memo is a draft or returned for modification, the caller wrote it, subject and body are long enough, an approver is set and the recipient count is within the limit; an author mismatch is reported exactly for a draft-like memo of another author |
| Workflow.Submit | backend/memos/views.py:162-260 | Submit succeeds exactly when all its demands hold; the result is PENDING_APPROVAL, keeps an existing number, generates one only when absent and a department exists, clears comments only from MODIFICACION_SOLICITADA, and changes nothing else |
| Workflow.SubmitChecksInOrder | backend/memos/views.py:162-194 | A memo in the wrong state is refused with its current status first, then a caller other than the author, then a blank subject |
| Workflow.SubmitLaterChecksInOrder | backend/memos/views.py:196-251 | A short body, a missing approver, no or too many recipients and a failed number are each reported only when every check before it passed: state, author and subject, then body, approver and recipients in that order |
| Workflow.SubmitAction | backend/memos/views.py:154-163 | Anonymous callers are refused as not authenticated, callers whose queryset lacks the memo as not found, and callers whose queryset holds it several times with a server error; otherwise submit's own checks answer, whatever the caller's role, so submit succeeds exactly when the caller finds the memo once and submit's demands hold |
| Workflow.SubmitAuthorRefusal | backend/memos/views.py:173-183 | Through the endpoint the author check refuses exactly a logged-in caller who reaches a draft-like memo it did not write |
| Workflow.DraftReachedByAuthorOrApprover | backend/memos/views.py:48-100 | Besides its author, only the DIRECTOR assigned as approver reaches a draft-like memo, and that director reaches it without a status filter |
| Workflow.SubmitAuthorRefusalMeetsApprover | backend/memos/views.py:154-183 | Everyone the author check refuses is the DIRECTOR assigned as approver, and that director, submitting a draft-like memo of another author, is always refused by it |
| Workflow.DecisionRefusal | backend/memos/views.py:278-295 | A decision is refused exactly unless the memo is pending, the caller is its approver and, when the memo has a department, the caller belongs to it; the first failing check decides the error |
| Workflow.Approve | backend/memos/views.py:278-332 | Approval succeeds exactly when the decision guard holds; it sets APPROVED and the approval time and otherwise writes only the seal and signed file, taking the seal when its helper succeeds and the signed file the PDF helper produces from the sealed memo, or keeping both when the helper fails |
| Workflow.ApproveAction | backend/memos/views.py:270-332 | Anonymous callers are refused as not authenticated, callers whose queryset lacks the memo as not found, and callers whose queryset holds it several times with a server error; otherwise the approval's own checks answer, so it succeeds exactly for a caller of any role who finds the memo once and may decide it |
| Workflow.ApprovalIndependentOfHelpers | backend/memos/views.py:297-332 | Whether approval succeeds, and every field but the seal and the signed file, do not depend on the seal and PDF helpers |
| Workflow.Reject | backend/memos/views.py:349-371 | Rejection succeeds exactly when the decision guard holds; it sets REJECTED and the given reason, the empty text when none is given, and nothing else |
| Workflow.RejectAction | backend/memos/views.py:342-371 | Anonymous callers are refused as not authenticated, callers whose queryset lacks the memo as not found, and callers whose queryset holds it several times with a server error; otherwise the rejection's own checks answer, so it succeeds exactly for a caller of any role who finds the memo once and may decide it |
| Workflow.RequestModification | backend/memos/views.py:388-416 | The request succeeds exactly when the guard holds and non-empty comments are given; missing or empty comments are refused; success sets MODIFICACION_SOLICITADA and stores the comments |
| Workflow.RequestModificationAction | backend/memos/views.py:381-416 | Anonymous callers are refused as not authenticated, callers whose queryset lacks the memo as not found, and callers whose queryset holds it several times with a server error; otherwise the request's own checks answer, so it succeeds exactly for a caller of any role who finds the memo once, may decide it and gives non-empty comments |
| Workflow.ActionsFollowSteps | backend/memos/views.py:162-416 | Every successful submit or decision moves the memo along one of the workflow's legal status changes |
| Workflow.FinalStatesRefuse | backend/memos/views.py:162-405 | APPROVED, REJECTED and DISTRIBUIDO memos are refused by submit and by every decision, with their status as the reason |
| Workflow.NumberNeverReplaced | backend/memos/views.py:240-244 | An assigned correlative number is kept by submit and by every decision |
| Workflow.SelfApprovalAdmitted | backend/memos/views.py:270-295 | A SECONDARY_USER author who is the approver of its own pending memo without department is admitted and approves it |
| Replies.WholeDays | backend/memos/views.py:458-460 | The whole days of a time difference are its floor in days, negative differences included |
| Replies.AppendNew | backend/memos/views.py:519-530 | Appending new ids keeps the list as a prefix, adds exactly the accepted ids, and keeps the list duplicate-free |
| Replies.ReplyRecipients | backend/memos/views.py:515-530 | The list starts with the parent's author, has no duplicates, holds every other parent recipient when asked and every additional user, nobody else, and the replier only as author or additional user |
| Replies.CollectReplyRecipients | backend/memos/views.py:515-530 | The two loops of the view build exactly the reference recipient list |
| Replies.DepartmentDirector | backend/memos/views.py:546-548 | The reply's approver, when there is one, is the director of the caller's department; a caller without department gives none; with unique department ids it is exactly the director of the caller's department |
| Replies.ReplyBody | backend/memos/views.py:508-512 | A non-empty given body is used as it is; a missing or empty one is replaced by the generated body, or by nothing when the generator raises |
| Replies.ReplyTo | backend/memos/views.py:441-541 | A reply succeeds exactly when the parent is distributed, the caller is a recipient, the window is open when a distribution date exists, depth and reply count are known and below their limits, the caller has not replied and a body is available; each refusal names its check; a raising depth, count or body helper, reached only once the earlier checks pass, gives a server error; a successful reply carries the resolved body |
| Replies.Reply | backend/memos/views.py:426-441 | Anonymous callers are refused as not authenticated, callers whose queryset lacks the memo as not found, and callers whose queryset holds it several times with a server error; otherwise the reply succeeds exactly when the reply conditions hold, and a memo found once gets `Replies.ReplyTo`'s result |
| Replies.ReplyShape | backend/memos/views.py:508-548 | The reply is a DRAFT by the caller linked to the parent, in the caller's department, with the parent's priority and confidentiality, the parent's author first among recipients, the given subject or a default one, and the given non-empty body or the generated one |
| Replies.ReplyRecipientsContents | backend/memos/views.py:515-544 | The reply's recipients are the parent's author, the other parent recipients when asked, and the additional users that exist |
| Replies.ReplyIncludingOthersHasSeveralRecipients | backend/memos/views.py:515-530 | A reply that includes the parent's recipients is a draft of the replier with at least two recipients whenever the parent has a recipient other than its author and the replier |
| Replies.SecondReplyRefused | backend/memos/views.py:490-503 | Once a caller's reply is stored, a second reply by the same caller to the same parent is refused |
| Replies.WhoCanReply | backend/memos/views.py:439-455 | A successful replier is a recipient of a distributed parent, never an ADMIN, and as an author only of its own memo |
| Attachments.UploadAttachment | backend/memos/views.py:572-632 | Anonymous callers are refused as not authenticated, callers whose queryset lacks the memo as not found, and callers whose queryset holds it several times with a server error; otherwise a memo that is neither a draft nor returned for modification is refused with its status; otherwise the upload succeeds exactly when a file is given, the memo has fewer attachments than the limit, the file fits and its lowered extension is allowed, each refusal naming the failed check; the stored attachment records the memo, the caller, the file name and the time |
| Attachments.UploadersAreAuthorOrApprover | backend/memos/views.py:572-584 | Only the memo's author or the DIRECTOR assigned as its approver can attach a file, and that director's acceptable upload to a draft-like memo succeeds |
| Attachments.PendingMemoRefusesUpload | backend/memos/views.py:580-584 | The author reaches its pending memo, and the upload's state check refuses it with the PENDING_APPROVAL status |
| Attachments.UploadKeepsCountWithinLimit | backend/memos/views.py:594-603 | A stored upload adds exactly one attachment to the memo and keeps its count within the limit |
| Attachments.ExtensionCaseInsensitive | backend/memos/views.py:616-619 | The outcome does not change when the extension is given in lower case |
| Serializers.ResolveUser | backend/memos/serializers.py:117-121 | An approver id resolves exactly when a user has it, and to that id |
| Serializers.Create | backend/memos/serializers.py:102-124 | A created memo is a DRAFT by the requesting user, whose recipients are exactly the existing requested users, each once, and which has an approver exactly when a non-zero id that exists is given; every other column keeps a new memo's default |
| Serializers.CreateAction | backend/memos/views.py:104-124 | Anonymous callers are refused as not authenticated and logged-in callers of another role with a 403; creating succeeds exactly for a SECONDARY_USER, and the memo is its DRAFT as `Serializers.Create` builds it |
| Serializers.Update | backend/memos/serializers.py:141-160 | Only supplied subject and body change; recipients are replaced only when ids are supplied, cleared by an empty list; the approver changes only to a supplied existing id and is never cleared |
| Serializers.UpdateAction | backend/memos/views.py:104-143 | Anonymous callers are refused as not authenticated, callers whose queryset lacks the memo as not found, callers whose queryset holds it several times with a server error, and callers who find it once but may not edit it with a 403; an edit succeeds exactly for the author of a DRAFT it finds once, and the memo stays a DRAFT by that author, edited as `Serializers.Update` edits it |
| Serializers.EmptyUpdateIsIdentity | backend/memos/serializers.py:141-160 | An update that supplies no field leaves the memo as it was |
| Signals.EmailOf | backend/memos/signals.py:70 | A non-empty address belongs to the account with that id, and with unique accounts the address is exactly that account's |
| Signals.RecipientEmails | backend/memos/signals.py:59 | The addresses are non-empty, each belongs to a recipient, every recipient with an address is present, and there are no more than recipients |
| Signals.DisplayName | backend/memos/signals.py:73 | The name shown is the account's full name when that is non-empty and its username otherwise, so it is the username when both names are empty and empty only with an empty username |
| Signals.ReportedReason | backend/memos/signals.py:83-85 | A rejection mail reports the stored reason exactly when it is non-empty |
| Signals.ReportedComments | backend/memos/signals.py:138 | The comments reported are never empty: the stored comments when those are non-empty, otherwise the fixed text for no specific comments |
| Signals.MemoStatusChanged | backend/memos/signals.py:26-145 | No mail for a new row, for an unchanged status or for a change into DRAFT; at most two mails and two only on approval; the hook raises exactly on approval of a memo without approver whose author has an address |
| Signals.NoticesReachRightPeople | backend/memos/signals.py:44-145 | Recipients are mailed only on approval and distribution, the author only on a decision, the approver only on submission, each mail carrying the memo's own reason, comments or approver |
| Signals.RecipientsAllReached | backend/memos/signals.py:45-132 | On entering APPROVED or DISTRIBUIDO every recipient with an address is mailed |
| Signals.DecisionsReachAuthor | backend/memos/signals.py:69-145 | On a decision the author with an address is mailed, and on submission the approver with an address is the only one mailed |
| Lifecycle.ReturnedMemoTakesUploadsNotEdits | backend/memos/permissions.py:41-48 | For a memo returned for modification its author's submit succeeds exactly when submit's demands hold and its upload exactly when the file is acceptable, while its edit is refused as not editable, the edit permission admitting drafts only |
| Lifecycle.AreaUserDraftWithSeveralRecipientsStuck | backend/memos/views.py:98-102 | An AREA_USER's own draft-like memo with two or more recipients can be neither submitted, edited nor given attachments, with any status parameter; without one each attempt is a server error |
| Lifecycle.SubmitNotifiesApprover | backend/memos/signals.py:96-105 | After a successful submit the hook mails exactly the assigned approver, if it has an address |
| Lifecycle.ApprovalNotifiesAuthor | backend/memos/signals.py:45-77 | After an approval through the endpoint the hook never raises and mails the author last, naming the caller as approver |
| Lifecycle.RejectionNotifiesAuthor | backend/memos/signals.py:80-93 | After a rejection through the endpoint the hook mails exactly the author, with the stored reason |
| Lifecycle.ModificationRequestNotifiesAuthor | backend/memos/signals.py:135-145 | After a modification request through the endpoint the hook mails exactly the author, with the given comments |
| Lifecycle.EditsAreSilent | backend/memos/signals.py:32-42 | Creating a memo, including the save that adds its approver, and editing a memo mail nobody |

## Left out

- Services helpers: the correlative generator, the digital seal, the signed PDF, thread depth, reply count and reply body are parameters (`Services.Helpers`), a raised exception being `None`; their formats and algorithms are not part of this model. Submit and approve catch the correlative, seal and PDF failures; a raising depth, count or body helper in reply gives `ServerError`.
- The limits (maximum recipients, attachments, file size, allowed extensions, thread depth, replies per memo, reply days) are parameters (`Services.Limits`), their values are not part of this model.
- Distribution after approval: its outcome only reaches the log, so `Workflow.Approve` ends at the saved APPROVED memo; the DISTRIBUIDO state is reached by a helper that is not part of this model.
- The seal's request metadata and the PDF file name: the helpers get the memo only.
- Mail wording, sender address and `send_mail`: only the kind, the addressees and the reported data are modelled.
- The module-level cache of previous statuses: the previous status is a parameter of `Signals.MemoStatusChanged`.
- Current time, file size, file name and extension are inputs; the extension is the split-off suffix of the name.
- Attachments.UploadAttachment: lowers the extension with ASCII rules only; Python's `lower()` also folds non-ASCII letters.
- Serializer field validation (required fields, maximum lengths, blank rules, whitespace trimming) happens before the modelled functions, which take validated data.
- Response and read serializers, HTTP status codes and response bodies: only the error kind is kept.
- The list, retrieve and destroy actions: only the lookup of one memo that the modelled actions share is modelled, so the duplicate rows the AREA_USER listing shows are not.
- The database schema the views use is assumed: the memo class (backend/memos/models.py:5-60) and its only migration declare neither the columns departamento, numero_correlativo, sello_digital, fecha_distribucion, prioridad, confidencial and modificacion_solicitada nor the statuses DISTRIBUIDO and MODIFICACION_SOLICITADA, so as written the submit view's status check (backend/memos/views.py:163) and the DIRECTOR's default queryset with its department filter (backend/memos/views.py:98) would raise; the model follows the views.
- The memo's department link: the field itself is not declared in the memo class, so it has no deletion rule and `Store.Integrity` does not constrain it.
- Memos.NewMemo: the default priority "NORMAL" is an assumption, the field is not declared in the memo class.
- Signals.EmailOf: an id without an account counts as an account without address; the database's foreign keys rule such ids out.
- Replies.ReplyTo: `incluir_todos_destinatarios` is taken as a boolean; other truthy request values are not modelled.
- Reply metadata built in the view is never stored, so it is not modelled.
- Account endpoints, login and tokens, migrations, admin, app configuration and the front end.

=== FILE: accounts.dfy ===
/** Users and departments (the user directory the memo workflow consults). */
module Accounts {
  import opened Common
  import Text

  type UserId = int
  type DeptId = int

  /** The four roles; a new account is a SECONDARY_USER (author). */
  datatype Role = SecondaryUser | Director | AreaUser | Admin

  const DefaultRole: Role := SecondaryUser

  /** A department: unique name and unique correlative prefix, an optional
      director, and an active flag. */
  datatype Departamento = Departamento(
    id: DeptId,
    nombre: string,
    prefijo: string,
    director: Option<UserId>,
    activo: bool)

  /** An account. `departamento` is optional; e-mail addresses are unique. */
  datatype User = User(
    id: UserId,
    username: string,
    firstName: string,
    lastName: string,
    email: string,
    role: Role,
    departamento: Option<DeptId>,
    cargo: string)

  /** Who is making a request: nobody, or a logged-in account. */
  datatype Requester = Anonymous | Member(user: User)

  /** The display name: first and last name joined by a space and stripped,
      or the username when both names are empty. */
  function NombreCompleto(u: User): (r: string)
    ensures u.firstName == [] && u.lastName == [] ==> r == u.username
    ensures u.firstName != [] || u.lastName != [] ==> r == Text.Strip(u.firstName + " " + u.lastName)
    ensures u.firstName != [] || u.lastName != [] ==>
              Text.IsStripped(r) && |r| <= |u.firstName| + 1 + |u.lastName|
    ensures u.firstName != [] || u.lastName != [] ==>
              (r == [] <==> Text.AllSpace(u.firstName) && Text.AllSpace(u.lastName))
  {
    if u.firstName != [] || u.lastName != [] then
      var joined := u.firstName + " " + u.lastName;
      assert Text.AllSpace(joined) <==> Text.AllSpace(u.firstName) && Text.AllSpace(u.lastName) by {
        if Text.AllSpace(u.firstName) && Text.AllSpace(u.lastName) {
          forall i | 0 <= i < |joined| ensures Text.IsSpace(joined[i]) {
            if i < |u.firstName| { assert joined[i] == u.firstName[i]; }
            else if i > |u.firstName| { assert joined[i] == u.lastName[i - |u.firstName| - 1]; }
          }
        }
        if Text.AllSpace(joined) {
          forall i | 0 <= i < |u.firstName| ensures Text.IsSpace(u.firstName[i]) {
            assert joined[i] == u.firstName[i];
          }
          forall i | 0 <= i < |u.lastName| ensures Text.IsSpace(u.lastName[i]) {
            assert joined[|u.firstName| + 1 + i] == u.lastName[i];
          }
        }
      }
      Text.Strip(joined)
    else u.username
  }

  /** Two clean names are joined by exactly one space. */
  lemma NombreCompletoJoinsNames(u: User)
    requires u.firstName != [] && u.lastName != []
    requires Text.IsStripped(u.firstName) && Text.IsStripped(u.lastName)
    ensures NombreCompleto(u) == u.firstName + " " + u.lastName
  {
    var joined := u.firstName + " " + u.lastName;
    assert joined[0] == u.firstName[0];
    assert joined[|joined| - 1] == u.lastName[|u.lastName| - 1];
  }

  /** A single clean first name is returned as it is: the separating space
      is stripped off again. */
  lemma NombreCompletoFirstNameOnly(u: User)
    requires u.firstName != [] && u.lastName == []
    requires Text.IsStripped(u.firstName)
    ensures NombreCompleto(u) == u.firstName
  {
    var f := u.firstName;
    var joined := f + " " + u.lastName;
    assert joined == f + [' '];
    assert joined[0] == f[0];
    assert Text.StripStart(joined) == joined;
    assert Text.IsSpace(joined[|joined| - 1]);
    assert joined[..|joined| - 1] == f;
    assert Text.StripEnd(joined) == Text.StripEnd(f);
    assert Text.StripEnd(f) == f;
  }

  /** Names made of whitespace only give an empty display name, not the
      username. */
  lemma NombreCompletoBlankNames(u: User)
    requires u.firstName != [] || u.lastName != []
    requires Text.AllSpace(u.firstName) && Text.AllSpace(u.lastName)
    ensures NombreCompleto(u) == []
    ensures u.username != [] ==> NombreCompleto(u) != u.username
  {
  }

  /** The ids of a table of users, in table order. */
  function UserIds(users: seq<User>): (r: seq<UserId>)
    ensures |r| == |users|
    ensures forall i :: 0 <= i < |users| ==> r[i] == users[i].id
  {
    MapSeq(users, (u: User) => u.id)
  }

  /** The primary-key constraint on a user table. */
  predicate UniqueUserIds(users: seq<User>) {
    NoDuplicates(UserIds(users))
  }

  /** `User.objects.filter(id=x).first()`. */
  function FindUser(users: seq<User>, id: UserId): (r: Option<User>)
    ensures r.Some? ==> r.value in users && r.value.id == id
    ensures r.None? <==> id !in UserIds(users)
  {
    if |users| == 0 then None
    else if users[0].id == id then Some(users[0])
    else
      var r := FindUser(users[1..], id);
      assert UserIds(users) == [users[0].id] + UserIds(users[1..]);
      r
  }

  /** `Departamento.objects.filter(id=x).first()`. */
  function FindDepartment(depts: seq<Departamento>, id: DeptId): (r: Option<Departamento>)
    ensures r.Some? ==> r.value in depts && r.value.id == id
    ensures r.None? ==> forall d :: d in depts ==> d.id != id
  {
    if |depts| == 0 then None
    else if depts[0].id == id then Some(depts[0])
    else FindDepartment(depts[1..], id)
  }

  /** `User.objects.filter(id__in=ids)` as a list of ids, in table order:
      ids without an account are dropped silently and repeated ids collapse. */
  function ExistingIds(users: seq<User>, ids: seq<UserId>): (r: seq<UserId>)
    ensures forall x :: x in r <==> x in ids && x in UserIds(users)
    ensures UniqueUserIds(users) ==> NoDuplicates(r)
  {
    var found := Filter(users, (u: User) => u.id in ids);
    var r := UserIds(found);
    assert forall x :: x in UserIds(users) <==> exists u :: u in users && u.id == x by {
      forall x ensures x in UserIds(users) <==> exists u :: u in users && u.id == x {
        if x in UserIds(users) {
          var i :| 0 <= i < |users| && UserIds(users)[i] == x;
          assert users[i] in users;
        }
      }
    }
    assert forall x :: x in r <==> exists u :: u in found && u.id == x by {
      forall x ensures x in r <==> exists u :: u in found && u.id == x {
        if x in r {
          var i :| 0 <= i < |r| && r[i] == x;
          assert found[i] in found;
        }
      }
    }
    assert UniqueUserIds(users) ==> NoDuplicates(r) by {
      if UniqueUserIds(users) {
        FilterKeepsUniqueIds(users, (u: User) => u.id in ids);
      }
    }
    r
  }

  /** Filtering a table keeps its primary keys distinct. */
  lemma {:induction false} FilterKeepsUniqueIds(users: seq<User>, keep: User -> bool)
    requires UniqueUserIds(users)
    ensures UniqueUserIds(Filter(users, keep))
    decreases |users|
  {
    if |users| > 0 {
      var tail := users[1..];
      assert UniqueUserIds(tail) by {
        forall i, j | 0 <= i < j < |tail| ensures UserIds(tail)[i] != UserIds(tail)[j] {
          assert UserIds(users)[i + 1] != UserIds(users)[j + 1];
        }
      }
      FilterKeepsUniqueIds(tail, keep);
      var rest := Filter(tail, keep);
      if keep(users[0]) {
        var r := [users[0]] + rest;
        assert Filter(users, keep) == r;
        forall i, j | 0 <= i < j < |r| ensures UserIds(r)[i] != UserIds(r)[j] {
          if i == 0 {
            assert r[j] in tail;
            var k :| 0 <= k < |tail| && tail[k] == r[j];
            assert UserIds(users)[0] != UserIds(users)[k + 1];
          } else {
            assert UserIds(rest)[i - 1] != UserIds(rest)[j - 1];
          }
        }
      }
    }
  }

  /** The department table's uniqueness constraints: id, name and prefix. */
  predicate DepartmentsUnique(depts: seq<Departamento>) {
    forall i, j :: 0 <= i < j < |depts| ==>
      && depts[i].id != depts[j].id
      && depts[i].nombre != depts[j].nombre
      && depts[i].prefijo != depts[j].prefijo
  }

  /** The user table's uniqueness constraints: id, username and e-mail. */
  predicate UsersUnique(users: seq<User>) {
    forall i, j :: 0 <= i < j < |users| ==>
      && users[i].id != users[j].id
      && users[i].username != users[j].username
      && users[i].email != users[j].email
  }

  /** Under the constraints, a department is determined by its id. */
  lemma SameDepartmentId(depts: seq<Departamento>, d: Departamento, e: Departamento)
    requires DepartmentsUnique(depts) && d in depts && e in depts && d.id == e.id
    ensures d == e
  {
    var i :| 0 <= i < |depts| && depts[i] == d;
    var j :| 0 <= j < |depts| && depts[j] == e;
    assert !(i < j) && !(j < i);
  }

  /** Under the constraints, an account is determined by its id. */
  lemma SameUserId(users: seq<User>, u: User, v: User)
    requires UsersUnique(users) && u in users && v in users && u.id == v.id
    ensures u == v
  {
    var i :| 0 <= i < |users| && users[i] == u;
    var j :| 0 <= j < |users| && users[j] == v;
    assert !(i < j) && !(j < i);
  }

  /** The database refuses a row that breaks a unique constraint. */
  datatype IntegrityError = DuplicateKey

  /** Inserting a department: refused exactly when its id, name or prefix is
      already taken; otherwise appended. */
  function InsertDepartment(depts: seq<Departamento>, d: Departamento): (r: Result<seq<Departamento>, IntegrityError>)
    ensures r.Success? <==>
              forall e :: e in depts ==> e.id != d.id && e.nombre != d.nombre && e.prefijo != d.prefijo
    ensures r.Success? ==> r.value == depts + [d]
    ensures DepartmentsUnique(depts) && r.Success? ==> DepartmentsUnique(r.value)
  {
    if exists e :: e in depts && (e.id == d.id || e.nombre == d.nombre || e.prefijo == d.prefijo) then
      Failure(DuplicateKey)
    else
      var r := depts + [d];
      assert forall i :: 0 <= i < |depts| ==> depts[i] in depts;
      Success(r)
  }

  /** Inserting a user: refused exactly when its id, username or e-mail is
      already taken; otherwise appended. */
  function InsertUser(users: seq<User>, u: User): (r: Result<seq<User>, IntegrityError>)
    ensures r.Success? <==>
              forall v :: v in users ==> v.id != u.id && v.username != u.username && v.email != u.email
    ensures r.Success? ==> r.value == users + [u]
    ensures UsersUnique(users) && r.Success? ==> UsersUnique(r.value)
  {
    if exists v :: v in users && (v.id == u.id || v.username == u.username || v.email == u.email) then
      Failure(DuplicateKey)
    else
      var r := users + [u];
      assert forall i :: 0 <= i < |users| ==> users[i] in users;
      Success(r)
  }
}

=== FILE: attachments.dfy ===
/** Uploading an attachment to a memo that is still a draft or was returned
    for modification. */
module Attachments {
  import opened Common
  import Text
  import opened Accounts
  import opened Memos
  import opened Services
  import opened Errors
  import opened Permissions
  import opened Visibility
  import opened Dispatch

  /** An uploaded file: its name, its size in bytes, and the extension of its
      name as the path splitter returns it (with the dot, e.g. ".PDF"). */
  datatype Upload = Upload(name: string, size: nat, extension: string)

  /** What the upload itself must satisfy, given the memo's attachments. */
  predicate UploadAcceptable(m: Memo, existing: seq<Attachment>, file: Option<Upload>, lim: Limits) {
    && file.Some?
    && |AttachmentsOf(existing, m.id)| < lim.maxAttachments
    && file.value.size <= lim.maxFileSize
    && Text.Lower(file.value.extension) in lim.allowedExtensions
  }

  /** The upload endpoint: admission, then the state, presence, count, size
      and extension checks, in this order. */
  function UploadAttachment(req: Requester, param: Option<string>, m: Memo, existing: seq<Attachment>,
                            file: Option<Upload>, lim: Limits, newId: AttachmentId, now: Time)
    : (r: Result<Attachment, Error>)
    ensures !IsAuthenticated(req) ==> r == Failure(NotAuthenticated)
    ensures IsAuthenticated(req) && !Visible(req.user, param, m) ==> r == Failure(NotFound)
    ensures IsAuthenticated(req) && RepeatedRows(req.user, param, m) ==> r == Failure(ServerError)
    ensures r.Success? <==>
              && FoundOnce(req, param, m) && DraftLike(m.status)
              && UploadAcceptable(m, existing, file, lim)
    ensures FoundOnce(req, param, m) && !DraftLike(m.status) ==>
              r == Failure(WrongState(m.status))
    ensures r.Success? ==>
              r.value.memo == m.id && r.value.uploadedBy == req.user.id
              && r.value.file == file.value.name && r.value.uploadedAt == now
    ensures r == Failure(Invalid(NoFile)) ==> file.None?
    ensures r == Failure(Invalid(TooManyAttachments)) ==>
              file.Some? && |AttachmentsOf(existing, m.id)| >= lim.maxAttachments
    ensures r == Failure(Invalid(FileTooLarge)) ==>
              |AttachmentsOf(existing, m.id)| < lim.maxAttachments && file.Some? && file.value.size > lim.maxFileSize
    ensures r == Failure(Invalid(ExtensionNotAllowed)) ==>
              file.Some? && file.value.size <= lim.maxFileSize
              && Text.Lower(file.value.extension) !in lim.allowedExtensions
  {
    MemoActionsNeedOnlyTheQueryset(UploadToMemo, req, param, m);
    match AdmitOn(UploadToMemo, req, param, m)
    case Some(e) => Failure(e)
    case None =>
      if !DraftLike(m.status) then Failure(WrongState(m.status))
      else if file.None? then Failure(Invalid(NoFile))
      else if |AttachmentsOf(existing, m.id)| >= lim.maxAttachments then Failure(Invalid(TooManyAttachments))
      else if file.value.size > lim.maxFileSize then Failure(Invalid(FileTooLarge))
      else if Text.Lower(file.value.extension) !in lim.allowedExtensions then Failure(Invalid(ExtensionNotAllowed))
      else Success(Attachment(newId, m.id, file.value.name, req.user.id, now))
  }

  /** Who can attach files: the memo's author, or the DIRECTOR it is assigned
      to for approval; such a director's upload to a draft-like memo is
      accepted like the author's. */
  lemma UploadersAreAuthorOrApprover(req: Requester, param: Option<string>, m: Memo, existing: seq<Attachment>,
                                     file: Option<Upload>, lim: Limits, newId: AttachmentId, now: Time)
    ensures UploadAttachment(req, param, m, existing, file, lim, newId, now).Success? ==>
              m.author == req.user.id || (req.user.role == Director && m.approver == Some(req.user.id))
    ensures IsDirector(req) && m.approver == Some(req.user.id) && DraftLike(m.status)
            && UploadAcceptable(m, existing, file, lim) ==>
              UploadAttachment(req, None, m, existing, file, lim, newId, now).Success?
  {
    if UploadAttachment(req, param, m, existing, file, lim, newId, now).Success? {
      ReachByRole(req.user, param, m);
      assert Visible(req.user, param, m) && DraftLike(m.status);
    }
    if IsDirector(req) && m.approver == Some(req.user.id) {
      assert Visible(req.user, None, m);
    }
  }

  /** The author of a memo waiting for approval reaches it, and the state
      check refuses the upload. */
  lemma PendingMemoRefusesUpload(u: User, m: Memo, existing: seq<Attachment>, file: Option<Upload>,
                                 lim: Limits, newId: AttachmentId, now: Time)
    requires u.role == SecondaryUser && m.author == u.id && m.status == PendingApproval
    ensures UploadAttachment(Member(u), None, m, existing, file, lim, newId, now) == Failure(WrongState(PendingApproval))
  {
    assert Visible(u, None, m);
  }

  /** A stored upload keeps the memo within its attachment limit, and adds
      exactly one attachment to it. */
  lemma UploadKeepsCountWithinLimit(req: Requester, param: Option<string>, m: Memo, existing: seq<Attachment>,
                                    file: Option<Upload>, lim: Limits, newId: AttachmentId, now: Time)
    requires UploadAttachment(req, param, m, existing, file, lim, newId, now).Success?
    ensures var a := UploadAttachment(req, param, m, existing, file, lim, newId, now).value;
      && |AttachmentsOf(existing + [a], m.id)| == |AttachmentsOf(existing, m.id)| + 1
      && |AttachmentsOf(existing + [a], m.id)| <= lim.maxAttachments
  {
    var a := UploadAttachment(req, param, m, existing, file, lim, newId, now).value;
    FilterAppend(existing, a, (x: Attachment) => x.memo == m.id);
  }

  /** The extension check ignores the case of ASCII letters. */
  lemma ExtensionCaseInsensitive(req: Requester, param: Option<string>, m: Memo, existing: seq<Attachment>,
                                 f: Upload, lim: Limits, newId: AttachmentId, now: Time)
    ensures UploadAttachment(req, param, m, existing, Some(f), lim, newId, now)
         == UploadAttachment(req, param, m, existing, Some(f.(extension := Text.Lower(f.extension))), lim, newId, now)
  {
    Text.LowerIdempotent(f.extension);
  }
}

=== FILE: common.dfy ===
/** Small building blocks shared by the memo model: optional values, results
    and the sequence operations that stand in for ORM query filters. */
module Common {

  /** A nullable value (a nullable column or an absent request key). */
  datatype Option<+T> = None | Some(value: T)

  /** The outcome of an action: the saved record, or the error the view returns
      without saving anything. */
  datatype Result<+T, +E> = Success(value: T) | Failure(error: E)

  /** No value occurs twice (a many-to-many relation holds each row once). */
  predicate NoDuplicates<T(==)>(s: seq<T>) {
    forall i, j :: 0 <= i < j < |s| ==> s[i] != s[j]
  }

  /** The elements of `s` that satisfy `keep`, in their original order. */
  function Filter<T(!new)>(s: seq<T>, keep: T -> bool): (r: seq<T>)
    ensures |r| <= |s|
    ensures forall x :: x in r <==> x in s && keep(x)
    ensures forall i :: 0 <= i < |r| ==> keep(r[i])
    ensures NoDuplicates(s) ==> NoDuplicates(r)
    ensures (forall x :: x in s ==> keep(x)) ==> r == s
  {
    if |s| == 0 then []
    else
      var rest := Filter(s[1..], keep);
      assert forall x :: x in s[1..] ==> x in s;
      if keep(s[0]) then
        assert NoDuplicates(s) ==> s[0] !in s[1..];
        [s[0]] + rest
      else rest
  }

  /** Filtering keeps a relation that holds between every element and each
      later one. */
  lemma {:induction false} FilterKeepsPairwise<T(!new)>(s: seq<T>, keep: T -> bool, ok: (T, T) -> bool)
    requires forall i, j :: 0 <= i < j < |s| ==> ok(s[i], s[j])
    ensures forall i, j :: 0 <= i < j < |Filter(s, keep)| ==> ok(Filter(s, keep)[i], Filter(s, keep)[j])
    decreases |s|
  {
    if |s| > 0 {
      var tail := s[1..];
      assert forall i, j :: 0 <= i < j < |tail| ==> ok(tail[i], tail[j]) by {
        forall i, j | 0 <= i < j < |tail| ensures ok(tail[i], tail[j]) {
          assert tail[i] == s[i + 1] && tail[j] == s[j + 1];
        }
      }
      FilterKeepsPairwise(tail, keep, ok);
      var rest := Filter(tail, keep);
      if keep(s[0]) {
        var r := [s[0]] + rest;
        assert Filter(s, keep) == r;
        forall i, j | 0 <= i < j < |r| ensures ok(r[i], r[j]) {
          if i == 0 {
            var x := rest[j - 1];
            assert x in rest;
            var k :| 0 <= k < |tail| && tail[k] == x;
            assert ok(s[0], s[k + 1]);
          } else {
            assert ok(rest[i - 1], rest[j - 1]);
          }
        }
      }
    }
  }

  /** Filtering distributes over appending one element. */
  lemma {:induction false} FilterAppend<T(!new)>(s: seq<T>, x: T, keep: T -> bool)
    ensures Filter(s + [x], keep) == Filter(s, keep) + (if keep(x) then [x] else [])
    decreases |s|
  {
    if |s| == 0 {
      assert s + [x] == [x];
    } else {
      assert (s + [x])[1..] == s[1..] + [x];
      FilterAppend(s[1..], x, keep);
    }
  }

  /** `s` with each value kept once, at its last occurrence: what storing a
      list into a many-to-many relation leaves of it. */
  function Dedup<T(==,!new)>(s: seq<T>): (r: seq<T>)
    ensures |r| <= |s|
    ensures forall x :: x in r <==> x in s
    ensures NoDuplicates(r)
    ensures NoDuplicates(s) ==> r == s
  {
    if |s| == 0 then []
    else
      var rest := Dedup(s[1..]);
      assert forall x :: x in s <==> x == s[0] || x in s[1..];
      assert NoDuplicates(s) ==> NoDuplicates(s[1..]) && s[0] !in s[1..] by {
        if NoDuplicates(s) {
          forall i, j | 0 <= i < j < |s| - 1 ensures s[1..][i] != s[1..][j] {
            assert s[i + 1] != s[j + 1];
          }
        }
      }
      if s[0] in s[1..] then rest
      else
        var r := [s[0]] + rest;
        assert forall j :: 1 <= j < |r| ==> r[j] in rest;
        r
  }

  /** Every element of `s` mapped through `f`, position by position. */
  function MapSeq<T, U>(s: seq<T>, f: T -> U): (r: seq<U>)
    ensures |r| == |s|
    ensures forall i :: 0 <= i < |s| ==> r[i] == f(s[i])
  {
    seq(|s|, i requires 0 <= i < |s| => f(s[i]))
  }
}

=== FILE: dispatch.dfy ===
/** How the memo view set admits a request before an action's own code runs.
    The permission classes that `get_permissions` picks for the action are
    asked first, in order; an action on one memo then looks the memo up in
    the caller's queryset (404 when it is not there, a server error when it
    is there more than once) and asks the same classes about the memo. The lists written on the individual action
    decorators are never asked, because `get_permissions` builds its own. */
module Dispatch {
  import opened Common
  import opened Accounts
  import opened Memos
  import opened Errors
  import opened Permissions
  import opened Visibility

  /** The actions of the memo view set. */
  datatype ViewAction =
    | ListMemos
    | RetrieveMemo
    | CreateMemo
    | UpdateMemo
    | PartialUpdateMemo
    | DestroyMemo
    | SubmitMemo
    | ApproveMemo
    | RejectMemo
    | RequestChanges
    | ReplyToMemo
    | UploadToMemo

  /** The permission classes the memo views name. */
  datatype PermissionClass =
    | AuthenticatedCheck   // IsAuthenticated
    | SecondaryUserCheck   // IsSecondaryUser
    | DirectorCheck        // IsDirector
    | InvolvedCheck        // IsRecipientOrInvolved
    | EditDraftCheck       // CanEditDraft

  /** The classes `get_permissions` returns for an action. */
  function ActivePermissions(a: ViewAction): (ps: seq<PermissionClass>)
    ensures |ps| >= 1 && ps[0] == AuthenticatedCheck
    ensures SecondaryUserCheck in ps <==> a == CreateMemo
    ensures EditDraftCheck in ps <==> a == UpdateMemo || a == PartialUpdateMemo
    ensures DirectorCheck !in ps && InvolvedCheck !in ps
  {
    match a
    case CreateMemo => [AuthenticatedCheck, SecondaryUserCheck]
    case UpdateMemo => [AuthenticatedCheck, EditDraftCheck]
    case PartialUpdateMemo => [AuthenticatedCheck, EditDraftCheck]
    case _ => [AuthenticatedCheck]
  }

  /** The list written on an action's decorator, for the extra actions. */
  function DeclaredPermissions(a: ViewAction): Option<seq<PermissionClass>> {
    match a
    case SubmitMemo => Some([AuthenticatedCheck, SecondaryUserCheck])
    case ApproveMemo => Some([AuthenticatedCheck, DirectorCheck])
    case RejectMemo => Some([AuthenticatedCheck, DirectorCheck])
    case RequestChanges => Some([AuthenticatedCheck, DirectorCheck])
    case ReplyToMemo => Some([AuthenticatedCheck])
    case UploadToMemo => Some([AuthenticatedCheck, EditDraftCheck])
    case _ => None
  }

  /** `has_permission` of a class; the object-only classes admit every request. */
  predicate Grants(p: PermissionClass, req: Requester) {
    match p
    case AuthenticatedCheck => IsAuthenticated(req)
    case SecondaryUserCheck => IsSecondaryUser(req)
    case DirectorCheck => IsDirector(req)
    case InvolvedCheck => true
    case EditDraftCheck => true
  }

  /** `has_object_permission` of a class; the request-only classes admit every memo. */
  predicate GrantsObject(p: PermissionClass, u: User, m: Memo) {
    match p
    case InvolvedCheck => IsRecipientOrInvolved(u, m)
    case EditDraftCheck => CanEditDraft(u, m)
    case _ => true
  }

  /** What a refusing class answers: 401 to an anonymous caller, otherwise a
      403 naming the class. */
  function Refusal(p: PermissionClass, req: Requester): Error {
    match req
    case Anonymous => NotAuthenticated
    case Member(_) =>
      match p
      case AuthenticatedCheck => NotAuthenticated
      case SecondaryUserCheck => Forbidden(NotSecondaryUser)
      case DirectorCheck => Forbidden(NotDirector)
      case InvolvedCheck => Forbidden(NotInvolved)
      case EditDraftCheck => Forbidden(NotEditable)
  }

  /** `check_permissions`: the answer of the first class that refuses. */
  function ViewRefusal(ps: seq<PermissionClass>, req: Requester): (e: Option<Error>)
    ensures e.None? <==> forall i :: 0 <= i < |ps| ==> Grants(ps[i], req)
    ensures |ps| > 0 && !Grants(ps[0], req) ==> e == Some(Refusal(ps[0], req))
    ensures e.Some? ==> exists i :: 0 <= i < |ps| && !Grants(ps[i], req) && e == Some(Refusal(ps[i], req))
    decreases |ps|
  {
    if |ps| == 0 then None
    else if !Grants(ps[0], req) then Some(Refusal(ps[0], req))
    else
      var e := ViewRefusal(ps[1..], req);
      assert forall i :: 1 <= i < |ps| ==> ps[i] == ps[1..][i - 1];
      e
  }

  /** `check_object_permissions`: the answer of the first class that refuses
      the memo. */
  function ObjectRefusal(ps: seq<PermissionClass>, u: User, m: Memo): (e: Option<Error>)
    ensures e.None? <==> forall i :: 0 <= i < |ps| ==> GrantsObject(ps[i], u, m)
    ensures e.Some? ==>
              exists i :: 0 <= i < |ps| && !GrantsObject(ps[i], u, m) && e == Some(Refusal(ps[i], Member(u)))
    decreases |ps|
  {
    if |ps| == 0 then None
    else if !GrantsObject(ps[0], u, m) then Some(Refusal(ps[0], Member(u)))
    else
      var e := ObjectRefusal(ps[1..], u, m);
      assert forall i :: 1 <= i < |ps| ==> ps[i] == ps[1..][i - 1];
      e
  }

  /** Admission to an action on the collection (list, create). */
  function Admit(a: ViewAction, req: Requester): (e: Option<Error>)
    ensures e.None? <==> forall i :: 0 <= i < |ActivePermissions(a)| ==> Grants(ActivePermissions(a)[i], req)
    ensures !IsAuthenticated(req) ==> e == Some(NotAuthenticated)
  {
    ViewRefusal(ActivePermissions(a), req)
  }

  /** The logged-in caller's queryset holds `m` exactly once, so
      `get_object` finds it. */
  predicate FoundOnce(req: Requester, param: Option<string>, m: Memo) {
    IsAuthenticated(req) && Visible(req.user, param, m) && !RepeatedRows(req.user, param, m)
  }

  /** Admission to an action on memo `m` (`get_object`): the request checks,
      the queryset lookup, which must find exactly one row (none is a 404,
      several raise outside any handler), then the object checks. */
  function AdmitOn(a: ViewAction, req: Requester, param: Option<string>, m: Memo): (e: Option<Error>)
    ensures !IsAuthenticated(req) ==> e == Some(NotAuthenticated)
    ensures e.None? <==>
              && Admit(a, req).None?
              && Visible(req.user, param, m) && !RepeatedRows(req.user, param, m)
              && forall i :: 0 <= i < |ActivePermissions(a)| ==> GrantsObject(ActivePermissions(a)[i], req.user, m)
    ensures Admit(a, req).None? && !Visible(req.user, param, m) ==> e == Some(NotFound)
    ensures Admit(a, req).None? && RepeatedRows(req.user, param, m) ==> e == Some(ServerError)
  {
    match Admit(a, req)
    case Some(e) => Some(e)
    case None =>
      var n := QueryRows(req.user, param, m);
      if n == 0 then Some(NotFound)
      else if n > 1 then Some(ServerError)
      else ObjectRefusal(ActivePermissions(a), req.user, m)
  }

  /** Only create checks a role: any logged-in caller passes the request
      checks of every other action, and a caller of another role is refused
      creation with a 403. */
  lemma CreateAloneChecksRole(a: ViewAction, req: Requester)
    ensures a != CreateMemo ==> (Admit(a, req).None? <==> IsAuthenticated(req))
    ensures Admit(CreateMemo, req).None? <==> IsSecondaryUser(req)
    ensures IsAuthenticated(req) && !IsSecondaryUser(req) ==>
              Admit(CreateMemo, req) == Some(Forbidden(NotSecondaryUser))
  {
    var ps := ActivePermissions(a);
    if a != CreateMemo && IsAuthenticated(req) {
      forall i | 0 <= i < |ps| ensures Grants(ps[i], req) {
        assert ps[i] in ps;
      }
    }
  }

  /** Submit, approve, reject, request-changes, reply and upload (like
      retrieve and destroy) admit exactly the logged-in callers whose
      queryset holds the memo once; a memo held several times is a server
      error. */
  lemma MemoActionsNeedOnlyTheQueryset(a: ViewAction, req: Requester, param: Option<string>, m: Memo)
    requires a != CreateMemo && a != UpdateMemo && a != PartialUpdateMemo
    ensures AdmitOn(a, req, param, m).None? <==>
              IsAuthenticated(req) && Visible(req.user, param, m) && !RepeatedRows(req.user, param, m)
    ensures IsAuthenticated(req) && !Visible(req.user, param, m) ==> AdmitOn(a, req, param, m) == Some(NotFound)
    ensures IsAuthenticated(req) && RepeatedRows(req.user, param, m) ==> AdmitOn(a, req, param, m) == Some(ServerError)
  {
    CreateAloneChecksRole(a, req);
    var ps := ActivePermissions(a);
    if IsAuthenticated(req) {
      forall i | 0 <= i < |ps| ensures GrantsObject(ps[i], req.user, m) {
        assert ps[i] in ps;
      }
    }
  }

  /** Update admits exactly the logged-in callers whose queryset holds the
      memo once and who may edit it; one who reaches it once but may not
      edit it gets a 403, and a memo held several times is a server error
      before the edit permission is asked. */
  lemma EditNeedsEditableDraft(a: ViewAction, req: Requester, param: Option<string>, m: Memo)
    requires a == UpdateMemo || a == PartialUpdateMemo
    ensures AdmitOn(a, req, param, m).None? <==>
              IsAuthenticated(req) && Visible(req.user, param, m) && !RepeatedRows(req.user, param, m)
              && CanEditDraft(req.user, m)
    ensures IsAuthenticated(req) && Visible(req.user, param, m) && !RepeatedRows(req.user, param, m)
            && !CanEditDraft(req.user, m) ==>
              AdmitOn(a, req, param, m) == Some(Forbidden(NotEditable))
    ensures IsAuthenticated(req) && RepeatedRows(req.user, param, m) ==> AdmitOn(a, req, param, m) == Some(ServerError)
  {
    CreateAloneChecksRole(a, req);
    var ps := ActivePermissions(a);
    assert ps == [AuthenticatedCheck, EditDraftCheck];
  }

  /** Every extra action names on its decorator a list that `get_permissions`
      does not apply: the active list keeps only the login check, and each
      role or object check written there except reply's is dropped. */
  lemma DeclaredListsIgnored(a: ViewAction)
    requires DeclaredPermissions(a).Some?
    ensures ActivePermissions(a) == [AuthenticatedCheck]
    ensures a != ReplyToMemo ==>
              exists p :: p in DeclaredPermissions(a).value && p !in ActivePermissions(a)
  {
    var d := DeclaredPermissions(a).value;
    if a != ReplyToMemo {
      assert d[1] in d;
    }
  }
}

=== FILE: lifecycle.dfy ===
/** Properties of the memo lifecycle that span several endpoints: what an
    author can still do with a memo returned for modification, and which
    mails each endpoint's save triggers. */
module Lifecycle {
  import opened Common
  import opened Accounts
  import opened Memos
  import opened Services
  import opened Errors
  import opened Permissions
  import opened Visibility
  import opened Workflow
  import opened Serializers
  import opened Attachments
  import opened Signals

  /** A memo returned for modification can be submitted again as it is and
      given new attachments, but not edited: the edit permission admits
      drafts only, while submit and upload accept both draft-like states. */
  lemma ReturnedMemoTakesUploadsNotEdits(u: User, m: Memo, lim: Limits, h: Helpers, input: UpdateInput,
                                         users: seq<User>, existing: seq<Attachment>, file: Option<Upload>,
                                         newId: AttachmentId, now: Time)
    requires u.role == SecondaryUser && m.author == u.id && m.status == ModificacionSolicitada
    ensures SubmitAction(Member(u), None, m, lim, h).Success? <==> SubmitReady(u, m, lim, h)
    ensures UpdateAction(Member(u), None, m, input, users) == Failure(Forbidden(NotEditable))
    ensures UploadAttachment(Member(u), None, m, existing, file, lim, newId, now).Success? <==>
              UploadAcceptable(m, existing, file, lim)
  {
    assert Visible(u, None, m);
    assert !CanEditDraft(u, m);
    assert DraftLike(m.status);
  }

  /** An AREA_USER cannot submit, edit or attach files to a draft it wrote
      with two or more recipients: without a status filter its queryset
      returns the draft once per recipient, so looking it up fails with a
      server error, and every status filter it has hides drafts. */
  lemma AreaUserDraftWithSeveralRecipientsStuck(u: User, param: Option<string>, d: Memo, lim: Limits, h: Helpers,
                                                input: UpdateInput, users: seq<User>, existing: seq<Attachment>,
                                                file: Option<Upload>, newId: AttachmentId, now: Time)
    requires u.role == AreaUser && d.author == u.id && DraftLike(d.status) && |d.recipients| >= 2
    ensures !SubmitAction(Member(u), param, d, lim, h).Success?
    ensures !UpdateAction(Member(u), param, d, input, users).Success?
    ensures !UploadAttachment(Member(u), param, d, existing, file, lim, newId, now).Success?
    ensures SubmitAction(Member(u), None, d, lim, h) == Failure(ServerError)
    ensures UpdateAction(Member(u), None, d, input, users) == Failure(ServerError)
    ensures UploadAttachment(Member(u), None, d, existing, file, lim, newId, now) == Failure(ServerError)
  {
    assert RepeatedRows(u, None, d);
    if Narrowing(u, param).Some? {
      assert !Visible(u, param, d);
    } else {
      assert RepeatedRows(u, param, d);
    }
  }

  /** A successful submit mails the assigned approver and nobody else. */
  lemma SubmitNotifiesApprover(req: Requester, param: Option<string>, m: Memo, lim: Limits, h: Helpers,
                               users: seq<User>)
    ensures SubmitAction(req, param, m, lim, h).Success? ==>
      var n := SubmitAction(req, param, m, lim, h).value;
      var o := MemoStatusChanged(false, Some(m.status), n, users);
      && !o.raised
      && o.sent == (if EmailOf(users, m.approver.value) != []
                    then [AwaitingYourApproval([EmailOf(users, m.approver.value)])] else [])
  {
    if SubmitAction(req, param, m, lim, h).Success? {
      var n := SubmitAction(req, param, m, lim, h).value;
      assert n == Submit(req.user, m, lim, h).value;
      assert n.status == PendingApproval && DraftLike(m.status);
      assert n.approver == m.approver;
    }
  }

  /** An approval through the endpoint mails the author last, naming the
      caller as approver, and the hook's approval branch never raises there,
      since the approver is the caller. */
  lemma ApprovalNotifiesAuthor(req: Requester, param: Option<string>, m: Memo, now: Time, h: Helpers,
                               users: seq<User>)
    requires ApproveAction(req, param, m, now, h).Success?
    ensures var n := ApproveAction(req, param, m, now, h).value;
      var o := MemoStatusChanged(false, Some(m.status), n, users);
      && !o.raised
      && (EmailOf(users, m.author) != [] ==>
            o.sent[|o.sent| - 1] == YourMemoApproved([EmailOf(users, m.author)], NameOf(users, req.user.id)))
  {
    var n := ApproveAction(req, param, m, now, h).value;
    assert n == Approve(req.user, m, now, h).value;
    assert n.approver == Some(req.user.id) && n.author == m.author && m.status == PendingApproval;
    DecisionsReachAuthor(false, Some(m.status), n, users);
  }

  /** A rejection through the endpoint mails exactly the author, with the
      reason it stored. */
  lemma RejectionNotifiesAuthor(req: Requester, param: Option<string>, m: Memo, reason: Option<string>,
                                users: seq<User>)
    requires RejectAction(req, param, m, reason).Success?
    ensures var n := RejectAction(req, param, m, reason).value;
      MemoStatusChanged(false, Some(m.status), n, users).sent
      == (if EmailOf(users, m.author) != []
          then [YourMemoRejected([EmailOf(users, m.author)], ReportedReason(n))] else [])
  {
    var n := RejectAction(req, param, m, reason).value;
    assert n == Reject(req.user, m, reason).value;
    assert n.author == m.author && n.status == Rejected && m.status == PendingApproval;
  }

  /** A modification request through the endpoint mails exactly the author,
      with the comments given. */
  lemma ModificationRequestNotifiesAuthor(req: Requester, param: Option<string>, m: Memo,
                                          comments: Option<string>, users: seq<User>)
    requires RequestModificationAction(req, param, m, comments).Success?
    ensures var n := RequestModificationAction(req, param, m, comments).value;
      MemoStatusChanged(false, Some(m.status), n, users).sent
      == (if EmailOf(users, m.author) != []
          then [ModificationsRequested([EmailOf(users, m.author)], comments.value)] else [])
  {
    var n := RequestModificationAction(req, param, m, comments).value;
    assert n == RequestModification(req.user, m, comments).value;
    assert n.author == m.author && n.status == ModificacionSolicitada && m.status == PendingApproval;
    assert ReportedComments(n) == comments.value;
  }

  /** Creating a memo mails nobody, neither when the row is inserted nor
      when the approver is saved onto it afterwards; an edit keeps the
      status and so mails nobody either. */
  lemma EditsAreSilent(req: Requester, param: Option<string>, m: Memo, input: UpdateInput,
                       cinput: CreateInput, users: seq<User>, newId: MemoId, now: Time)
    ensures CreateAction(req, cinput, users, newId, now).Success? ==>
              var c := CreateAction(req, cinput, users, newId, now).value;
              && MemoStatusChanged(true, None, c, users) == Outcome([], false)
              && MemoStatusChanged(false, Some(Draft), c, users) == Outcome([], false)
    ensures UpdateAction(req, param, m, input, users).Success? ==>
              MemoStatusChanged(false, Some(m.status), UpdateAction(req, param, m, input, users).value, users)
              == Outcome([], false)
  {
  }
}

=== FILE: memos.dfy ===
/** The memo record, its workflow status and its attachments. */
module Memos {
  import opened Common
  import opened Accounts

  type MemoId = int
  type AttachmentId = int

  /** Instants, in microseconds since an arbitrary epoch. */
  type Time = int

  /** The six workflow states. The model class declares the first four; the
      views and the notification hook also use DISTRIBUIDO and
      MODIFICACION_SOLICITADA. */
  datatype Status =
    | Draft
    | PendingApproval
    | Approved
    | Rejected
    | Distribuido
    | ModificacionSolicitada

  /** A new memo is a draft. */
  const DefaultStatus: Status := Draft

  /** The stored text of a status, as used in queries and query parameters. */
  function Name(s: Status): string {
    match s
    case Draft => "DRAFT"
    case PendingApproval => "PENDING_APPROVAL"
    case Approved => "APPROVED"
    case Rejected => "REJECTED"
    case Distribuido => "DISTRIBUIDO"
    case ModificacionSolicitada => "MODIFICACION_SOLICITADA"
  }

  /** Distinct states are stored as distinct text, so a status query
      parameter selects at most one state. */
  lemma NameInjective(s: Status, t: Status)
    ensures Name(s) == Name(t) <==> s == t
  {
    if s != t {
      assert Name(s)[0] != Name(t)[0] || Name(s)[1] != Name(t)[1] || |Name(s)| != |Name(t)|;
    }
  }

  /** The states in which the author works on the memo: the ones submit and
      attachment upload accept. */
  predicate DraftLike(s: Status) {
    s == Draft || s == ModificacionSolicitada
  }

  /** Default priority of a memo created without one; the field's declaration
      is not part of the model, so this value is an assumption. */
  const DefaultPrioridad: string := "NORMAL"

  /** The rows of a many-to-many relation to users, in the order the
      database returns them: a user is related at most once. */
  type Recipients = s: seq<UserId> | NoDuplicates(s)

  /** A memo. `author` is required; `approver`, `parentMemo`, `departamento`
      and every audit field are nullable. */
  datatype Memo = Memo(
    id: MemoId,
    subject: string,
    body: string,
    status: Status,
    author: UserId,
    approver: Option<UserId>,
    recipients: Recipients,
    createdAt: Time,
    approvedAt: Option<Time>,
    parentMemo: Option<MemoId>,
    signedFile: Option<string>,
    rejectionReason: Option<string>,
    numeroCorrelativo: Option<string>,
    departamento: Option<DeptId>,
    selloDigital: Option<string>,
    fechaDistribucion: Option<Time>,
    prioridad: string,
    confidencial: bool,
    modificacionSolicitada: Option<string>)

  /** A file attached to a memo, with who uploaded it and when. */
  datatype Attachment = Attachment(
    id: AttachmentId,
    memo: MemoId,
    file: string,
    uploadedBy: UserId,
    uploadedAt: Time)

  /** A freshly inserted row: the given content and author, every nullable
      column null, no recipients, and the column defaults. */
  function NewMemo(id: MemoId, subject: string, body: string, author: UserId, now: Time): (m: Memo)
    ensures m.status == DefaultStatus && m.author == author && m.createdAt == now
    ensures m.subject == subject && m.body == body
    ensures m.approver.None? && m.recipients == [] && m.parentMemo.None?
    ensures m.approvedAt.None? && m.numeroCorrelativo.None? && m.selloDigital.None?
    ensures m.rejectionReason.None? && m.modificacionSolicitada.None?
    ensures m.signedFile.None? && m.departamento.None? && m.fechaDistribucion.None?
    ensures m.prioridad == DefaultPrioridad && !m.confidencial
  {
    Memo(id, subject, body, DefaultStatus, author, None, [], now, None, None, None,
         None, None, None, None, None, DefaultPrioridad, false, None)
  }

  /** The attachments of one memo, in table order. */
  function AttachmentsOf(atts: seq<Attachment>, memo: MemoId): (r: seq<Attachment>)
    ensures forall a :: a in r <==> a in atts && a.memo == memo
  {
    Filter(atts, (a: Attachment) => a.memo == memo)
  }
}

=== FILE: permissions.dfy ===
/** The permission classes: view-level role checks and object-level checks,
    as pure predicates of the caller and the memo. Which of them an action
    actually asks is decided in `Dispatch`. */
module Permissions {
  import opened Accounts
  import opened Memos

  predicate IsAuthenticated(req: Requester) {
    req.Member?
  }

  /** Authors' actions: a logged-in SECONDARY_USER. */
  predicate IsSecondaryUser(req: Requester) {
    req.Member? && req.user.role == SecondaryUser
  }

  /** Approvers' actions: a logged-in DIRECTOR. */
  predicate IsDirector(req: Requester) {
    req.Member? && req.user.role == Director
  }

  /** Object check for approved memos: only APPROVED memos pass, and only
      for a recipient or the author. */
  predicate IsRecipientOrInvolved(u: User, m: Memo) {
    if m.status != Approved then false
    else u.id in m.recipients || u.id == m.author
  }

  /** Object check for editing: only drafts pass, and only for the author. */
  predicate CanEditDraft(u: User, m: Memo) {
    if m.status != Draft then false
    else u.id == m.author
  }

  /** Only APPROVED memos pass the object check, so a DISTRIBUIDO memo is
      refused even to its own recipients and author; an APPROVED one passes
      exactly for a recipient or the author. */
  lemma InvolvedOnlyWhenApproved(u: User, m: Memo)
    ensures m.status != Approved ==> !IsRecipientOrInvolved(u, m)
    ensures m.status == Distribuido && u.id in m.recipients ==> !IsRecipientOrInvolved(u, m)
    ensures m.status == Approved ==>
              (IsRecipientOrInvolved(u, m) <==> u.id in m.recipients || u.id == m.author)
  {
  }

  /** Only drafts are editable, and a draft exactly by its author: in
      particular a memo returned for modification is not editable. */
  lemma EditableOnlyAsDraft(u: User, m: Memo)
    ensures m.status != Draft ==> !CanEditDraft(u, m)
    ensures m.status == ModificacionSolicitada ==> !CanEditDraft(u, m)
    ensures m.status == Draft ==> (CanEditDraft(u, m) <==> u.id == m.author)
  {
  }
}

=== FILE: replies.dfy ===
/** Replying to a distributed memo: the guards, and the new draft it
    creates with its recipient list. */
module Replies {
  import opened Common
  import opened Accounts
  import opened Memos
  import opened Services
  import opened Errors
  import opened Permissions
  import opened Visibility
  import opened Dispatch

  /** What the caller may send with a reply. */
  datatype ReplyInput = ReplyInput(
    subject: Option<string>,           // defaults to "RE: " + the parent's subject
    body: Option<string>,              // missing or empty: generated from the parent
    additionalRecipients: seq<UserId>, // extra ids; unknown ones are dropped
    incluirTodos: bool)                // also copy the parent's recipients

  const MicrosPerDay: int := 86_400_000_000

  /** The whole days in a time difference, rounded down (also for negative
      differences), as a time delta reports them. */
  function WholeDays(delta: int): (d: int)
    ensures d * MicrosPerDay <= delta < (d + 1) * MicrosPerDay
  {
    delta / MicrosPerDay
  }

  /** Appends, left to right, every id of `xs` that `keep` accepts and that
      the list does not hold yet. */
  function AppendNew(acc: seq<UserId>, xs: seq<UserId>, keep: UserId -> bool): (r: seq<UserId>)
    ensures |acc| <= |r| && r[..|acc|] == acc
    ensures forall x :: x in r <==> x in acc || (x in xs && keep(x))
    ensures NoDuplicates(acc) ==> NoDuplicates(r)
    decreases |xs|
  {
    if |xs| == 0 then acc
    else
      var next := if keep(xs[0]) && xs[0] !in acc then acc + [xs[0]] else acc;
      assert forall x :: x in xs <==> x == xs[0] || x in xs[1..];
      var r := AppendNew(next, xs[1..], keep);
      assert r[..|acc|] == r[..|next|][..|acc|];
      r
  }

  /** The reply's recipients: the parent's author first; with `incluirTodos`
      then every recipient of the parent except the replier; then the
      additional users; each user once. */
  function ReplyRecipients(author: UserId, parentRecipients: seq<UserId>, replier: UserId,
                           incluirTodos: bool, additional: seq<UserId>): (r: seq<UserId>)
    ensures |r| >= 1 && r[0] == author
    ensures NoDuplicates(r)
    ensures incluirTodos ==> forall x :: x in parentRecipients && x != replier ==> x in r
    ensures forall x :: x in additional ==> x in r
    ensures forall x :: x in r ==>
              x == author || (incluirTodos && x in parentRecipients && x != replier) || x in additional
    ensures replier in r ==> replier == author || replier in additional
  {
    var base := [author];
    var withAll := if incluirTodos then AppendNew(base, parentRecipients, (x: UserId) => x != replier) else base;
    AppendNew(withAll, additional, (x: UserId) => true)
  }

  /** The recipient list built with the view's two loops over the parent's
      recipients and the additional users. */
  method CollectReplyRecipients(author: UserId, parentRecipients: seq<UserId>, replier: UserId,
                                incluirTodos: bool, additional: seq<UserId>) returns (r: seq<UserId>)
    ensures r == ReplyRecipients(author, parentRecipients, replier, incluirTodos, additional)
  {
    var keepOthers := (x: UserId) => x != replier;
    var everyone := (x: UserId) => true;
    r := [author];
    if incluirTodos {
      var i := 0;
      while i < |parentRecipients|
        invariant 0 <= i <= |parentRecipients|
        invariant AppendNew(r, parentRecipients[i..], keepOthers) == AppendNew([author], parentRecipients, keepOthers)
      {
        var dest := parentRecipients[i];
        assert parentRecipients[i..][1..] == parentRecipients[i + 1..];
        if dest != replier && dest !in r {
          r := r + [dest];
        }
        i := i + 1;
      }
    }
    var j := 0;
    ghost var before := r;
    while j < |additional|
      invariant 0 <= j <= |additional|
      invariant AppendNew(r, additional[j..], everyone) == AppendNew(before, additional, everyone)
    {
      assert additional[j..][1..] == additional[j + 1..];
      if additional[j] !in r {
        r := r + [additional[j]];
      }
      j := j + 1;
    }
  }

  /** The caller already wrote a reply to this parent. */
  predicate HasReplied(memos: seq<Memo>, parent: MemoId, u: UserId) {
    exists m :: m in memos && m.parentMemo == Some(parent) && m.author == u
  }

  /** The reply window has closed: only checked when a distribution date is
      recorded. */
  predicate WindowExpired(parent: Memo, lim: Limits, now: Time) {
    parent.fechaDistribucion.Some? && WholeDays(now - parent.fechaDistribucion.value) > lim.maxReplyDays
  }

  /** The body of the reply: the one given, or the generated one when none
      or an empty one is given (nothing when the generator raises). */
  function ReplyBody(parent: Memo, input: ReplyInput, h: Helpers): (b: Option<string>)
    ensures input.body.Some? && input.body.value != [] ==> b == input.body
    ensures input.body.None? || input.body == Some([]) ==> b == h.replyBody(parent)
  {
    match input.body
    case Some(t) => if t != [] then Some(t) else h.replyBody(parent)
    case None => h.replyBody(parent)
  }

  /** Everything a reply demands of the parent, the caller and the helpers. */
  predicate ReplyAllowed(u: User, parent: Memo, memos: seq<Memo>, input: ReplyInput, lim: Limits, h: Helpers,
                         now: Time) {
    && parent.status == Distribuido
    && u.id in parent.recipients
    && !WindowExpired(parent, lim, now)
    && h.threadDepth(parent).Some? && h.threadDepth(parent).value < lim.maxThreadDepth
    && h.replyCount(parent).Some? && h.replyCount(parent).value < lim.maxRepliesPerMemo
    && !HasReplied(memos, parent.id, u.id)
    && ReplyBody(parent, input, h).Some?
  }

  /** The director of the caller's department, if there is one. */
  function DepartmentDirector(u: User, depts: seq<Departamento>): (r: Option<UserId>)
    ensures r.Some? ==> exists d :: d in depts && Some(d.id) == u.departamento && d.director == r
    ensures u.departamento.None? ==> r.None?
    ensures DepartmentsUnique(depts) ==>
              forall d :: d in depts && Some(d.id) == u.departamento ==> r == d.director
  {
    match u.departamento
    case None => None
    case Some(did) =>
      match FindDepartment(depts, did)
      case None => None
      case Some(d) =>
        assert DepartmentsUnique(depts) ==> forall e :: e in depts && e.id == did ==> e == d by {
          if DepartmentsUnique(depts) {
            forall e | e in depts && e.id == did ensures e == d {
              SameDepartmentId(depts, d, e);
            }
          }
        }
        d.director
  }

  /** The draft a reply creates, with the given body. */
  function ReplyMemo(u: User, parent: Memo, users: seq<User>, depts: seq<Departamento>,
                     input: ReplyInput, body: string, newId: MemoId, now: Time): Memo
  {
    var subject := match input.subject case Some(s) => s case None => "RE: " + parent.subject;
    var recipients := ReplyRecipients(parent.author, parent.recipients, u.id, input.incluirTodos,
                                      ExistingIds(users, input.additionalRecipients));
    NewMemo(newId, subject, body, u.id, now).(
      parentMemo := Some(parent.id),
      departamento := u.departamento,
      prioridad := parent.prioridad,
      confidencial := parent.confidencial,
      recipients := recipients,
      approver := DepartmentDirector(u, depts))
  }

  /** reply, once the caller reached the parent: the checks in order, then
      the new draft. The depth, count and body helpers are called outside
      any handler, so one that raises ends the request with a server error. */
  function ReplyTo(u: User, parent: Memo, memos: seq<Memo>, users: seq<User>, depts: seq<Departamento>,
                   input: ReplyInput, lim: Limits, h: Helpers, newId: MemoId, now: Time)
    : (r: Result<Memo, Error>)
    ensures r.Success? <==> ReplyAllowed(u, parent, memos, input, lim, h, now)
    ensures parent.status != Distribuido ==> r == Failure(WrongState(parent.status))
    ensures parent.status == Distribuido && u.id !in parent.recipients ==> r == Failure(Forbidden(NotRecipient))
    ensures r == Failure(Invalid(ReplyWindowExpired)) ==> WindowExpired(parent, lim, now)
    ensures r == Failure(Invalid(ThreadTooDeep)) ==>
              !WindowExpired(parent, lim, now) && h.threadDepth(parent).Some?
              && h.threadDepth(parent).value >= lim.maxThreadDepth
    ensures r == Failure(Invalid(TooManyReplies)) ==>
              h.threadDepth(parent).Some? && h.threadDepth(parent).value < lim.maxThreadDepth
              && h.replyCount(parent).Some? && h.replyCount(parent).value >= lim.maxRepliesPerMemo
    ensures r == Failure(Invalid(AlreadyReplied)) ==>
              h.replyCount(parent).Some? && h.replyCount(parent).value < lim.maxRepliesPerMemo
              && HasReplied(memos, parent.id, u.id)
    ensures r == Failure(ServerError) <==>
              && parent.status == Distribuido && u.id in parent.recipients && !WindowExpired(parent, lim, now)
              && (|| h.threadDepth(parent).None?
                  || (h.threadDepth(parent).value < lim.maxThreadDepth && h.replyCount(parent).None?)
                  || (h.threadDepth(parent).value < lim.maxThreadDepth
                      && h.replyCount(parent).value < lim.maxRepliesPerMemo
                      && !HasReplied(memos, parent.id, u.id) && ReplyBody(parent, input, h).None?))
    ensures r.Success? ==>
              r.value == ReplyMemo(u, parent, users, depts, input, ReplyBody(parent, input, h).value, newId, now)
  {
    if parent.status != Distribuido then Failure(WrongState(parent.status))
    else if u.id !in parent.recipients then Failure(Forbidden(NotRecipient))
    else if WindowExpired(parent, lim, now) then Failure(Invalid(ReplyWindowExpired))
    else match h.threadDepth(parent)
    case None => Failure(ServerError)
    case Some(depth) =>
      if depth >= lim.maxThreadDepth then Failure(Invalid(ThreadTooDeep))
      else match h.replyCount(parent)
      case None => Failure(ServerError)
      case Some(count) =>
        if count >= lim.maxRepliesPerMemo then Failure(Invalid(TooManyReplies))
        else if HasReplied(memos, parent.id, u.id) then Failure(Invalid(AlreadyReplied))
        else match ReplyBody(parent, input, h)
        case None => Failure(ServerError)
        case Some(body) => Success(ReplyMemo(u, parent, users, depts, input, body, newId, now))
  }

  /** The reply endpoint: admission, then `ReplyTo`. */
  function Reply(req: Requester, param: Option<string>, parent: Memo, memos: seq<Memo>, users: seq<User>,
                 depts: seq<Departamento>, input: ReplyInput, lim: Limits, h: Helpers, newId: MemoId, now: Time)
    : (r: Result<Memo, Error>)
    ensures !IsAuthenticated(req) ==> r == Failure(NotAuthenticated)
    ensures IsAuthenticated(req) && !Visible(req.user, param, parent) ==> r == Failure(NotFound)
    ensures IsAuthenticated(req) && RepeatedRows(req.user, param, parent) ==> r == Failure(ServerError)
    ensures r.Success? <==>
              FoundOnce(req, param, parent)
              && ReplyAllowed(req.user, parent, memos, input, lim, h, now)
    ensures FoundOnce(req, param, parent) ==>
              r == ReplyTo(req.user, parent, memos, users, depts, input, lim, h, newId, now)
  {
    MemoActionsNeedOnlyTheQueryset(ReplyToMemo, req, param, parent);
    match AdmitOn(ReplyToMemo, req, param, parent)
    case Some(e) => Failure(e)
    case None => ReplyTo(req.user, parent, memos, users, depts, input, lim, h, newId, now)
  }

  /** The new memo is a draft written by the caller, linked to the parent,
      in the caller's department (not the parent's), with the parent's
      priority and confidentiality, the caller's department director as
      approver, and the parent's author as first recipient. */
  lemma ReplyShape(u: User, parent: Memo, memos: seq<Memo>, users: seq<User>, depts: seq<Departamento>,
                   input: ReplyInput, lim: Limits, h: Helpers, newId: MemoId, now: Time)
    requires ReplyTo(u, parent, memos, users, depts, input, lim, h, newId, now).Success?
    ensures var n := ReplyTo(u, parent, memos, users, depts, input, lim, h, newId, now).value;
      && n.status == Draft && n.author == u.id && n.parentMemo == Some(parent.id)
      && n.departamento == u.departamento
      && n.prioridad == parent.prioridad && n.confidencial == parent.confidencial
      && n.approver == DepartmentDirector(u, depts)
      && n.recipients[0] == parent.author && NoDuplicates(n.recipients)
      && n.approvedAt.None? && n.numeroCorrelativo.None?
      && (input.subject.None? ==> n.subject == "RE: " + parent.subject)
      && (input.body.None? || input.body == Some([]) ==> Some(n.body) == h.replyBody(parent))
      && (input.body.Some? && input.body != Some([]) ==> n.body == input.body.value)
  {
  }

  /** The reply's recipients are the parent's author, the parent's other
      recipients when asked for (never the replier), and the additional users
      that exist; nobody else. */
  lemma ReplyRecipientsContents(u: User, parent: Memo, memos: seq<Memo>, users: seq<User>,
                                depts: seq<Departamento>, input: ReplyInput, lim: Limits, h: Helpers,
                                newId: MemoId, now: Time)
    requires ReplyTo(u, parent, memos, users, depts, input, lim, h, newId, now).Success?
    ensures var rs := ReplyTo(u, parent, memos, users, depts, input, lim, h, newId, now).value.recipients;
      && (input.incluirTodos ==> forall x :: x in parent.recipients && x != u.id ==> x in rs)
      && (forall x :: x in input.additionalRecipients && x in UserIds(users) ==> x in rs)
      && (forall x :: x in rs ==>
            || x == parent.author
            || (input.incluirTodos && x in parent.recipients && x != u.id)
            || (x in input.additionalRecipients && x in UserIds(users)))
  {
  }

  /** Replying with the parent's other recipients included gives the draft
      at least two recipients as soon as the parent has one besides its
      author and the replier. */
  lemma ReplyIncludingOthersHasSeveralRecipients(u: User, parent: Memo, memos: seq<Memo>, users: seq<User>,
                                                 depts: seq<Departamento>, input: ReplyInput, lim: Limits,
                                                 h: Helpers, newId: MemoId, now: Time, x: UserId)
    requires ReplyTo(u, parent, memos, users, depts, input, lim, h, newId, now).Success?
    requires input.incluirTodos && x in parent.recipients && x != u.id && x != parent.author
    ensures var n := ReplyTo(u, parent, memos, users, depts, input, lim, h, newId, now).value;
      n.author == u.id && n.status == Draft && |n.recipients| >= 2
  {
    var n := ReplyTo(u, parent, memos, users, depts, input, lim, h, newId, now).value;
    ReplyShape(u, parent, memos, users, depts, input, lim, h, newId, now);
    ReplyRecipientsContents(u, parent, memos, users, depts, input, lim, h, newId, now);
    assert x in n.recipients && n.recipients[0] == parent.author;
  }

  /** A second reply by the same caller to the same parent, once the first is
      stored, is refused as a duplicate. */
  lemma SecondReplyRefused(u: User, parent: Memo, memos: seq<Memo>, users: seq<User>,
                           depts: seq<Departamento>, input: ReplyInput, input2: ReplyInput, lim: Limits,
                           h: Helpers, newId: MemoId, newId2: MemoId, now: Time)
    requires ReplyTo(u, parent, memos, users, depts, input, lim, h, newId, now).Success?
    ensures var first := ReplyTo(u, parent, memos, users, depts, input, lim, h, newId, now).value;
      ReplyTo(u, parent, memos + [first], users, depts, input2, lim, h, newId2, now)
        == Failure(Invalid(AlreadyReplied))
  {
    var first := ReplyTo(u, parent, memos, users, depts, input, lim, h, newId, now).value;
    assert first in memos + [first];
    assert HasReplied(memos + [first], parent.id, u.id);
  }

  /** A SECONDARY_USER can reply only to memos it wrote itself: its
      queryset holds nothing else, even when it is a recipient. An ADMIN
      cannot reply at all. */
  lemma WhoCanReply(req: Requester, param: Option<string>, parent: Memo, memos: seq<Memo>, users: seq<User>,
                    depts: seq<Departamento>, input: ReplyInput, lim: Limits, h: Helpers, newId: MemoId, now: Time)
    requires Reply(req, param, parent, memos, users, depts, input, lim, h, newId, now).Success?
    ensures req.user.role != Admin
    ensures req.user.role == SecondaryUser ==> parent.author == req.user.id
    ensures req.user.id in parent.recipients && parent.status == Distribuido
  {
    ReachByRole(req.user, param, parent);
  }
}

=== FILE: serializers.dfy ===
/** Creating and editing memos through the write serializers. Their only
    writable fields are subject, body, recipient ids and approver id; the
    input types below have exactly those fields, so status, author and every
    other column cannot be set through them. */
module Serializers {
  import opened Common
  import opened Accounts
  import opened Memos
  import opened Errors
  import opened Permissions
  import opened Visibility
  import opened Dispatch

  /** The validated data of a create request. */
  datatype CreateInput = CreateInput(
    subject: string,
    body: string,
    recipientIds: Option<seq<UserId>>,
    approverId: Option<UserId>)

  /** The validated data of an update request: only the keys supplied. */
  datatype UpdateInput = UpdateInput(
    subject: Option<string>,
    body: Option<string>,
    recipientIds: Option<seq<UserId>>,
    approverId: Option<UserId>)

  /** The existing account with this id, as an approver link. */
  function ResolveUser(users: seq<User>, id: UserId): (r: Option<UserId>)
    ensures r.Some? <==> id in UserIds(users)
    ensures r.Some? ==> r.value == id
  {
    match FindUser(users, id)
    case Some(v) => Some(v.id)
    case None => None
  }

  /** create: a draft by the requesting user whatever the input; recipients
      are the existing users among the ids; an approver only for a non-zero
      id (zero is falsy) that resolves to a user. */
  function Create(u: User, input: CreateInput, users: seq<User>, newId: MemoId, now: Time): (m: Memo)
    ensures m.status == Draft && m.author == u.id
    ensures m.subject == input.subject && m.body == input.body
    ensures forall x :: x in m.recipients <==>
              input.recipientIds.Some? && x in input.recipientIds.value && x in UserIds(users)
    ensures m.approver.Some? <==>
              input.approverId.Some? && input.approverId.value != 0 && input.approverId.value in UserIds(users)
    ensures m.approver.Some? ==> m.approver == input.approverId
    ensures m.parentMemo.None? && m.numeroCorrelativo.None? && m.approvedAt.None?
    ensures m == NewMemo(newId, input.subject, input.body, u.id, now).(recipients := m.recipients, approver := m.approver)
  {
    var recipients := match input.recipientIds
                      case Some(ids) => if ids != [] then Dedup(ExistingIds(users, ids)) else []
                      case None => [];
    var approver := match input.approverId
                    case Some(a) => if a != 0 then ResolveUser(users, a) else None
                    case None => None;
    NewMemo(newId, input.subject, input.body, u.id, now).(recipients := recipients, approver := approver)
  }

  /** update: supplied subject and body replace the old ones; supplied
      recipient ids replace the recipients (an empty list clears them); a
      supplied approver id that resolves replaces the approver. Nothing else
      changes. */
  function Update(m: Memo, input: UpdateInput, users: seq<User>): (r: Memo)
    ensures r.(subject := m.subject, body := m.body, recipients := m.recipients, approver := m.approver) == m
    ensures r.subject == (if input.subject.Some? then input.subject.value else m.subject)
    ensures r.body == (if input.body.Some? then input.body.value else m.body)
    ensures input.recipientIds.None? ==> r.recipients == m.recipients
    ensures input.recipientIds.Some? ==>
              forall x :: x in r.recipients <==> x in input.recipientIds.value && x in UserIds(users)
    ensures input.recipientIds == Some([]) ==> r.recipients == []
    ensures input.approverId.Some? && input.approverId.value in UserIds(users) ==> r.approver == input.approverId
    ensures input.approverId.None? || input.approverId.value !in UserIds(users) ==> r.approver == m.approver
    ensures m.approver.Some? ==> r.approver.Some?
  {
    var subject := match input.subject case Some(s) => s case None => m.subject;
    var body := match input.body case Some(b) => b case None => m.body;
    var recipients := match input.recipientIds
                      case Some(ids) => Dedup(ExistingIds(users, ids))
                      case None => m.recipients;
    assert recipients == [] || recipients[0] in recipients;
    var approver := match input.approverId
                    case Some(a) => (match ResolveUser(users, a) case Some(v) => Some(v) case None => m.approver)
                    case None => m.approver;
    m.(subject := subject, body := body, recipients := recipients, approver := approver)
  }

  /** The create endpoint: only authors create memos (the one action whose
      permission list checks a role). */
  function CreateAction(req: Requester, input: CreateInput, users: seq<User>, newId: MemoId, now: Time)
    : (r: Result<Memo, Error>)
    ensures r.Success? <==> IsSecondaryUser(req)
    ensures !IsAuthenticated(req) ==> r == Failure(NotAuthenticated)
    ensures IsAuthenticated(req) && !IsSecondaryUser(req) ==> r == Failure(Forbidden(NotSecondaryUser))
    ensures r.Success? ==> r.value.author == req.user.id && r.value.status == Draft
    ensures r.Success? ==> r.value == Create(req.user, input, users, newId, now)
  {
    CreateAloneChecksRole(CreateMemo, req);
    match Admit(CreateMemo, req)
    case Some(e) => Failure(e)
    case None => Success(Create(req.user, input, users, newId, now))
  }

  /** The update endpoint: the queryset, then the edit permission (drafts,
      by their author), then `Update`. */
  function UpdateAction(req: Requester, param: Option<string>, m: Memo, input: UpdateInput, users: seq<User>)
    : (r: Result<Memo, Error>)
    ensures r.Success? <==> FoundOnce(req, param, m) && CanEditDraft(req.user, m)
    ensures !IsAuthenticated(req) ==> r == Failure(NotAuthenticated)
    ensures IsAuthenticated(req) && !Visible(req.user, param, m) ==> r == Failure(NotFound)
    ensures IsAuthenticated(req) && RepeatedRows(req.user, param, m) ==> r == Failure(ServerError)
    ensures FoundOnce(req, param, m) && !CanEditDraft(req.user, m) ==>
              r == Failure(Forbidden(NotEditable))
    ensures r.Success? ==> r.value.status == Draft && r.value.author == req.user.id
    ensures r.Success? ==> r.value == Update(m, input, users)
  {
    EditNeedsEditableDraft(UpdateMemo, req, param, m);
    match AdmitOn(UpdateMemo, req, param, m)
    case Some(e) => Failure(e)
    case None => Success(Update(m, input, users))
  }

  /** Updating with no supplied field changes nothing. */
  lemma EmptyUpdateIsIdentity(m: Memo, users: seq<User>)
    ensures Update(m, UpdateInput(None, None, None, None), users) == m
  {
  }
}

=== FILE: services.dfy ===
/** The collaborators the views call but whose implementation is not part of
    the model: configured limits, and helper functions whose results are
    taken as given. A helper that raises is modelled by `None`. */
module Services {
  import opened Common
  import opened Accounts
  import opened Memos

  /** Configured limits (all read from the services module). */
  datatype Limits = Limits(
    maxRecipients: nat,              // MAX_RECIPIENTS
    maxAttachments: nat,             // MAX_ATTACHMENTS
    maxFileSize: nat,                // MAX_FILE_SIZE, in bytes
    allowedExtensions: set<string>,  // ALLOWED_ATTACHMENT_EXTENSIONS, e.g. ".pdf"
    maxThreadDepth: nat,             // MAX_PROFUNDIDAD_HILO
    maxRepliesPerMemo: nat,          // MAX_RESPUESTAS_POR_MEMO
    maxReplyDays: int)               // TIEMPO_MAXIMO_RESPUESTA, in whole days

  /** Helper functions, uninterpreted. */
  datatype Helpers = Helpers(
    /** generar_correlativo: the next number for a department, or raises. */
    correlativo: DeptId -> Option<string>,
    /** crear_sello_digital: the seal of a memo being approved, or raises. */
    sello: Memo -> Option<string>,
    /** generate_signed_pdf and storing the file: the stored name, or raises. */
    signedPdf: Memo -> Option<string>,
    /** calcular_profundidad_hilo: depth of a memo in its reply thread, or raises. */
    threadDepth: Memo -> Option<nat>,
    /** contar_respuestas_memo: number of replies a memo already has, or raises. */
    replyCount: Memo -> Option<nat>,
    /** generar_contenido_respuesta: default body quoting the original, or raises. */
    replyBody: Memo -> Option<string>)
}

/** Why an action is refused. Nothing is saved on any of them. */
module Errors {
  import opened Memos

  /** Refusals for who the caller is (403, or 401 for an anonymous caller). */
  datatype Denial =
    | NotSecondaryUser
    | NotDirector
    | NotAuthor
    | NotAssignedApprover
    | OtherDepartment
    | NotEditable
    | NotInvolved
    | NotRecipient

  /** Refusals for what the request or the memo holds (400). */
  datatype Problem =
    | SubjectRequired
    | BodyTooShort
    | NoApproverAssigned
    | NoRecipientsAssigned
    | TooManyRecipients
    | CommentsRequired
    | ReplyWindowExpired
    | ThreadTooDeep
    | TooManyReplies
    | AlreadyReplied
    | NoFile
    | TooManyAttachments
    | FileTooLarge
    | ExtensionNotAllowed

  datatype Error =
    | NotAuthenticated
    | NotFound                       // the memo is outside the caller's queryset
    | Forbidden(denial: Denial)
    | Invalid(problem: Problem)
    | WrongState(current: Status)    // the action is not legal from `current`
    | CorrelativeFailed              // the number generator raised (500)
    | ServerError                    // an exception escaped the view (500)
}

=== FILE: signals.dfy ===
/** The notification hook that runs after every save of a memo. The status
    the row had before the save is an explicit argument here; the mail
    messages are reduced to their kind, their addressees and the data they
    report. */
module Signals {
  import opened Common
  import opened Accounts
  import opened Memos

  /** One mail the hook sends. `to` is its list of addresses. */
  datatype Notice =
    | MemoApproved(to: seq<string>)
    | YourMemoApproved(to: seq<string>, approverName: string)
    | YourMemoRejected(to: seq<string>, reason: Option<string>)
    | AwaitingYourApproval(to: seq<string>)
    | MemoReceived(to: seq<string>)
    | ModificationsRequested(to: seq<string>, comments: string)

  /** The mails sent, in order, and whether the hook raised after them (it
      dereferences the approver of an approved memo without checking it). */
  datatype Outcome = Outcome(sent: seq<Notice>, raised: bool)

  /** The text reported when modifications are requested without comments. */
  const NoComments: string := "Sin comentarios específicos"

  /** The address of an account; empty (no mail) when it has none. */
  function EmailOf(users: seq<User>, id: UserId): (e: string)
    ensures e != [] ==> exists u :: u in users && u.id == id && u.email == e
    ensures UsersUnique(users) ==> forall v :: v in users && v.id == id ==> e == v.email
  {
    match FindUser(users, id)
    case Some(u) =>
      assert UsersUnique(users) ==> forall v :: v in users && v.id == id ==> v == u by {
        if UsersUnique(users) {
          forall v | v in users && v.id == id ensures v == u {
            SameUserId(users, u, v);
          }
        }
      }
      u.email
    case None =>
      assert forall v :: v in users ==> v.id in UserIds(users) by {
        forall v | v in users ensures v.id in UserIds(users) {
          var i :| 0 <= i < |users| && users[i] == v;
          assert UserIds(users)[i] == v.id;
        }
      }
      []
  }

  /** The non-empty addresses of the given accounts, in order. */
  function RecipientEmails(users: seq<User>, ids: seq<UserId>): (r: seq<string>)
    ensures |r| <= |ids|
    ensures forall e :: e in r ==> e != []
    ensures forall e :: e in r ==> exists k :: 0 <= k < |ids| && EmailOf(users, ids[k]) == e
    ensures forall k :: 0 <= k < |ids| && EmailOf(users, ids[k]) != [] ==> EmailOf(users, ids[k]) in r
  {
    if ids == [] then []
    else
      var e := EmailOf(users, ids[0]);
      var tail := ids[1..];
      var rest := RecipientEmails(users, tail);
      var r := (if e != [] then [e] else []) + rest;
      forall x | x in r ensures exists k :: 0 <= k < |ids| && EmailOf(users, ids[k]) == x {
        if x in rest {
          var k :| 0 <= k < |tail| && EmailOf(users, tail[k]) == x;
          assert ids[k + 1] == tail[k];
        } else {
          assert EmailOf(users, ids[0]) == x;
        }
      }
      forall k | 0 <= k < |ids| && EmailOf(users, ids[k]) != [] ensures EmailOf(users, ids[k]) in r {
        if k > 0 {
          assert ids[k] == tail[k - 1];
        }
      }
      r
  }

  /** The name a mail shows for an account: its full name, or its username
      when that is empty. */
  function DisplayName(u: User): (r: string)
    ensures NombreCompleto(u) != [] ==> r == NombreCompleto(u)
    ensures NombreCompleto(u) == [] ==> r == u.username
    ensures r == [] ==> u.username == []
    ensures u.firstName == [] && u.lastName == [] ==> r == u.username
  {
    var full := NombreCompleto(u);
    if full != [] then full else u.username
  }

  /** The name of the account with this id, or nothing for an unknown id. */
  function NameOf(users: seq<User>, id: UserId): string {
    match FindUser(users, id)
    case Some(u) => DisplayName(u)
    case None => []
  }

  /** The reason a rejection mail reports: a non-empty stored reason. */
  function ReportedReason(m: Memo): (r: Option<string>)
    ensures r.Some? <==> m.rejectionReason.Some? && m.rejectionReason.value != []
    ensures r.Some? ==> r == m.rejectionReason
  {
    match m.rejectionReason
    case Some(t) => if t != [] then Some(t) else None
    case None => None
  }

  /** The comments a modification request mail reports: the stored ones, or
      a fixed text when none or empty ones are stored. */
  function ReportedComments(m: Memo): (c: string)
    ensures c != []
    ensures m.modificacionSolicitada.Some? && m.modificacionSolicitada.value != [] ==>
              c == m.modificacionSolicitada.value
    ensures m.modificacionSolicitada.None? || m.modificacionSolicitada == Some([]) ==> c == NoComments
  {
    match m.modificacionSolicitada
    case Some(t) => if t != [] then t else NoComments
    case None => NoComments
  }

  /** The hook: nothing for a new row or an unchanged status; otherwise the
      mails for the state the memo has entered. */
  function MemoStatusChanged(created: bool, before: Option<Status>, m: Memo, users: seq<User>): (o: Outcome)
    ensures created || before == Some(m.status) ==> o == Outcome([], false)
    ensures m.status == Draft ==> o == Outcome([], false)
    ensures |o.sent| <= 2
    ensures |o.sent| == 2 ==> m.status == Approved
    ensures o.raised <==>
              && !created && before != Some(m.status) && m.status == Approved
              && EmailOf(users, m.author) != [] && m.approver.None?
  {
    if created || before == Some(m.status) then Outcome([], false)
    else
      var authorEmail := EmailOf(users, m.author);
      match m.status
      case Draft => Outcome([], false)
      case Approved =>
        var toRecipients := RecipientEmails(users, m.recipients);
        var first := if toRecipients != [] then [MemoApproved(toRecipients)] else [];
        if authorEmail == [] then Outcome(first, false)
        else (match m.approver
              case None => Outcome(first, true)
              case Some(a) => Outcome(first + [YourMemoApproved([authorEmail], NameOf(users, a))], false))
      case Rejected =>
        if authorEmail == [] then Outcome([], false)
        else Outcome([YourMemoRejected([authorEmail], ReportedReason(m))], false)
      case PendingApproval =>
        (match m.approver
         case Some(a) =>
           if EmailOf(users, a) != [] then Outcome([AwaitingYourApproval([EmailOf(users, a)])], false)
           else Outcome([], false)
         case None => Outcome([], false))
      case Distribuido =>
        var toRecipients := RecipientEmails(users, m.recipients);
        if toRecipients != [] then Outcome([MemoReceived(toRecipients)], false) else Outcome([], false)
      case ModificacionSolicitada =>
        if authorEmail == [] then Outcome([], false)
        else Outcome([ModificationsRequested([authorEmail], ReportedComments(m))], false)
  }

  /** Whether an address belongs to one of the memo's recipients. */
  predicate RecipientAddress(users: seq<User>, m: Memo, e: string) {
    exists k :: 0 <= k < |m.recipients| && EmailOf(users, m.recipients[k]) == e
  }

  /** The people a notice may go to, for the state the memo is in: the
      recipients hear of approval and distribution, the author of every
      decision, the approver of a submission. */
  predicate RightAddressees(users: seq<User>, m: Memo, n: Notice) {
    match n
    case MemoApproved(to) =>
      m.status == Approved && to != [] && forall e :: e in to ==> e != [] && RecipientAddress(users, m, e)
    case MemoReceived(to) =>
      m.status == Distribuido && to != [] && forall e :: e in to ==> e != [] && RecipientAddress(users, m, e)
    case YourMemoApproved(to, name) =>
      m.status == Approved && m.approver.Some? && to == [EmailOf(users, m.author)] && to[0] != []
      && name == NameOf(users, m.approver.value)
    case YourMemoRejected(to, reason) =>
      m.status == Rejected && to == [EmailOf(users, m.author)] && to[0] != [] && reason == ReportedReason(m)
    case ModificationsRequested(to, comments) =>
      m.status == ModificacionSolicitada && to == [EmailOf(users, m.author)] && to[0] != []
      && comments == ReportedComments(m)
    case AwaitingYourApproval(to) =>
      m.status == PendingApproval && m.approver.Some? && to == [EmailOf(users, m.approver.value)] && to[0] != []
  }

  /** Every mail the hook sends goes to the right people and reports the
      memo's own data. */
  lemma NoticesReachRightPeople(created: bool, before: Option<Status>, m: Memo, users: seq<User>)
    ensures forall n :: n in MemoStatusChanged(created, before, m, users).sent ==> RightAddressees(users, m, n)
  {
  }

  /** When a memo enters a state its recipients hear about, every recipient
      with an address is among the addressees. */
  lemma RecipientsAllReached(created: bool, before: Option<Status>, m: Memo, users: seq<User>, k: int)
    requires !created && before != Some(m.status)
    requires m.status == Approved || m.status == Distribuido
    requires 0 <= k < |m.recipients| && EmailOf(users, m.recipients[k]) != []
    ensures var o := MemoStatusChanged(created, before, m, users);
      exists n :: n in o.sent && (n.MemoApproved? || n.MemoReceived?) && EmailOf(users, m.recipients[k]) in n.to
  {
    var o := MemoStatusChanged(created, before, m, users);
    var n := if m.status == Approved then MemoApproved(RecipientEmails(users, m.recipients))
             else MemoReceived(RecipientEmails(users, m.recipients));
    assert n in o.sent;
  }

  /** The people who always hear of a change: the author of a decision and
      the approver of a submission, when they have an address. */
  lemma DecisionsReachAuthor(created: bool, before: Option<Status>, m: Memo, users: seq<User>)
    requires !created && before != Some(m.status)
    ensures m.status == Rejected && EmailOf(users, m.author) != [] ==>
              MemoStatusChanged(created, before, m, users).sent
              == [YourMemoRejected([EmailOf(users, m.author)], ReportedReason(m))]
    ensures m.status == ModificacionSolicitada && EmailOf(users, m.author) != [] ==>
              MemoStatusChanged(created, before, m, users).sent
              == [ModificationsRequested([EmailOf(users, m.author)], ReportedComments(m))]
    ensures m.status == PendingApproval && m.approver.Some? && EmailOf(users, m.approver.value) != [] ==>
              MemoStatusChanged(created, before, m, users).sent
              == [AwaitingYourApproval([EmailOf(users, m.approver.value)])]
    ensures m.status == Approved && EmailOf(users, m.author) != [] && m.approver.Some? ==>
              var sent := MemoStatusChanged(created, before, m, users).sent;
              sent != [] && sent[|sent| - 1] == YourMemoApproved([EmailOf(users, m.author)], NameOf(users, m.approver.value))
  {
  }
}

=== FILE: store.dfy ===
/** The four tables and what deleting a row does to the others: cascades
    for owned rows, nulling for optional links. */
module Store {
  import opened Common
  import opened Accounts
  import opened Memos

  datatype Db = Db(
    users: seq<User>,
    departments: seq<Departamento>,
    memos: seq<Memo>,
    attachments: seq<Attachment>)

  function UserIdSet(db: Db): set<UserId> { set u | u in db.users :: u.id }
  function DeptIdSet(db: Db): set<DeptId> { set d | d in db.departments :: d.id }
  function MemoIdSet(db: Db): set<MemoId> { set m | m in db.memos :: m.id }

  /** Every user a memo names is among `users`; its parent is among `memos`. */
  predicate LinksWithin(m: Memo, users: set<UserId>, memos: set<MemoId>) {
    && m.author in users
    && (m.approver.Some? ==> m.approver.value in users)
    && (forall r :: r in m.recipients ==> r in users)
    && (m.parentMemo.Some? ==> m.parentMemo.value in memos)
  }

  /** Every user a memo names exists; a memo's parent exists. */
  predicate MemoLinksValid(db: Db, m: Memo) {
    LinksWithin(m, UserIdSet(db), MemoIdSet(db))
  }

  /** The unique constraints of the user and department tables. */
  predicate Keys(db: Db) {
    UsersUnique(db.users) && DepartmentsUnique(db.departments)
  }

  /** The unique constraints hold and every foreign key points at an
      existing row. (The memo's department link is not included: its
      deletion rule is not part of the model.) */
  predicate Integrity(db: Db) {
    && Keys(db)
    && (forall m :: m in db.memos ==> MemoLinksValid(db, m))
    && (forall a :: a in db.attachments ==>
          a.memo in MemoIdSet(db) && a.uploadedBy in UserIdSet(db))
    && (forall u :: u in db.users ==>
          u.departamento.Some? ==> u.departamento.value in DeptIdSet(db))
    && (forall d :: d in db.departments ==>
          d.director.Some? ==> d.director.value in UserIdSet(db))
  }

  /** A surviving memo once its parent `id` is gone: the link is nulled. */
  function Orphan(m: Memo, id: MemoId): Memo {
    if m.parentMemo == Some(id) then m.(parentMemo := None) else m
  }

  /** The memos other than `id`, each with a parent link to `id` nulled, in
      table order. */
  function Orphans(memos: seq<Memo>, id: MemoId): (r: seq<Memo>)
    ensures forall m :: m in memos && m.id != id ==> Orphan(m, id) in r
    ensures forall m :: m in r ==> exists o :: o in memos && o.id != id && m == Orphan(o, id)
    decreases |memos|
  {
    if |memos| == 0 then []
    else
      var rest := Orphans(memos[1..], id);
      assert forall m :: m in memos[1..] ==> m in memos;
      assert forall m :: m in memos ==> m == memos[0] || m in memos[1..];
      if memos[0].id != id then [Orphan(memos[0], id)] + rest else rest
  }

  /** Deleting memo `id`: its attachments go with it and its replies lose
      their parent link; users and departments are untouched. */
  function DeleteMemo(db: Db, id: MemoId): (r: Db)
    ensures forall m :: m in r.memos ==> m.id != id && m.parentMemo != Some(id)
    ensures forall m :: m in db.memos && m.id != id ==> Orphan(m, id) in r.memos
    ensures forall m :: m in r.memos ==> exists o :: o in db.memos && o.id != id && m == Orphan(o, id)
    ensures forall a :: a in r.attachments <==> a in db.attachments && a.memo != id
    ensures r.users == db.users && r.departments == db.departments
  {
    db.(memos := Orphans(db.memos, id),
        attachments := Filter(db.attachments, (a: Attachment) => a.memo != id))
  }

  /** Deleting memo `id` keeps every other memo id, and every user and
      department id. */
  lemma DeleteMemoKeepsOtherIds(db: Db, id: MemoId)
    ensures MemoIdSet(db) - {id} <= MemoIdSet(DeleteMemo(db, id))
    ensures UserIdSet(DeleteMemo(db, id)) == UserIdSet(db)
    ensures DeptIdSet(DeleteMemo(db, id)) == DeptIdSet(db)
  {
    var r := DeleteMemo(db, id);
    forall x | x in MemoIdSet(db) - {id} ensures x in MemoIdSet(r) {
      var o :| o in db.memos && o.id == x;
      assert Orphan(o, id) in r.memos;
    }
  }

  /** Nulling a parent link to the deleted memo keeps a memo's links
      within the surviving rows. */
  lemma OrphanKeepsLinks(o: Memo, id: MemoId, users: set<UserId>, memos: set<MemoId>, memos2: set<MemoId>)
    requires LinksWithin(o, users, memos) && memos - {id} <= memos2
    ensures LinksWithin(Orphan(o, id), users, memos2)
  {
    if o.parentMemo.Some? && o.parentMemo != Some(id) {
      assert o.parentMemo.value in memos - {id};
    }
  }

  /** Deleting a memo leaves no dangling reference behind. */
  lemma DeleteMemoPreservesIntegrity(db: Db, id: MemoId)
    requires Integrity(db)
    ensures Integrity(DeleteMemo(db, id))
  {
    var r := DeleteMemo(db, id);
    DeleteMemoKeepsOtherIds(db, id);
    var users, memos, memos2 := UserIdSet(db), MemoIdSet(db), MemoIdSet(r);
    forall m | m in r.memos ensures MemoLinksValid(r, m) {
      var o :| o in db.memos && o.id != id && m == Orphan(o, id);
      assert MemoLinksValid(db, o);
      OrphanKeepsLinks(o, id, users, memos, memos2);
    }
    forall a | a in r.attachments ensures a.memo in MemoIdSet(r) && a.uploadedBy in UserIdSet(r) {
      assert a in db.attachments;
      assert a.memo in memos - {id};
    }
  }

  /** A memo that survives the deletion of user `uid`: the approver link is
      nulled, `uid` leaves the recipients, and a parent link to a memo that
      was deleted with its author is nulled. */
  function Detach(m: Memo, uid: UserId, gone: set<MemoId>): Memo {
    m.(approver := if m.approver == Some(uid) then None else m.approver,
       recipients := Filter(m.recipients, (x: UserId) => x != uid),
       parentMemo := if m.parentMemo.Some? && m.parentMemo.value in gone then None else m.parentMemo)
  }

  /** The ids of the memos user `uid` wrote. */
  function AuthoredBy(db: Db, uid: UserId): set<MemoId> {
    set m | m in db.memos && m.author == uid :: m.id
  }

  /** A department that outlives its director loses the link. */
  function Headless(d: Departamento, uid: UserId): Departamento {
    if d.director == Some(uid) then d.(director := None) else d
  }

  /** The memos not written by `uid`, each detached from it, in table order. */
  function Survivors(memos: seq<Memo>, uid: UserId, gone: set<MemoId>): (r: seq<Memo>)
    ensures forall m :: m in memos && m.author != uid ==> Detach(m, uid, gone) in r
    ensures forall m :: m in r ==> exists o :: o in memos && o.author != uid && m == Detach(o, uid, gone)
    decreases |memos|
  {
    if |memos| == 0 then []
    else
      var rest := Survivors(memos[1..], uid, gone);
      assert forall m :: m in memos[1..] ==> m in memos;
      assert forall m :: m in memos ==> m == memos[0] || m in memos[1..];
      if memos[0].author != uid then [Detach(memos[0], uid, gone)] + rest else rest
  }

  /** Deleting user `uid`: the memos it wrote are deleted (with their
      attachments), so are the attachments it uploaded; every other memo
      survives detached from it, and departments it directed lose their
      director. */
  function DeleteUser(db: Db, uid: UserId): (r: Db)
    ensures forall a :: a in r.attachments <==>
              a in db.attachments && a.uploadedBy != uid && a.memo !in AuthoredBy(db, uid)
    ensures forall u :: u in r.users <==> u in db.users && u.id != uid
    ensures forall m :: m in db.memos && m.author != uid ==> Detach(m, uid, AuthoredBy(db, uid)) in r.memos
    ensures forall m :: m in r.memos ==>
              exists o :: o in db.memos && o.author != uid && m == Detach(o, uid, AuthoredBy(db, uid))
    ensures |r.departments| == |db.departments|
    ensures forall i :: 0 <= i < |db.departments| ==> r.departments[i] == Headless(db.departments[i], uid)
  {
    var gone := AuthoredBy(db, uid);
    Db(Filter(db.users, (u: User) => u.id != uid),
       MapSeq(db.departments, (d: Departamento) => Headless(d, uid)),
       Survivors(db.memos, uid, gone),
       Filter(db.attachments, (a: Attachment) => a.uploadedBy != uid && a.memo !in gone))
  }

  /** After deleting user `uid`, no memo or department names it any more. */
  lemma DeleteUserUnlinks(db: Db, uid: UserId)
    ensures forall m :: m in DeleteUser(db, uid).memos ==>
              m.author != uid && m.approver != Some(uid) && uid !in m.recipients
    ensures forall d :: d in DeleteUser(db, uid).departments ==> d.director != Some(uid)
  {
    var gone := AuthoredBy(db, uid);
    var r := DeleteUser(db, uid);
    forall m | m in r.memos ensures m.author != uid && m.approver != Some(uid) && uid !in m.recipients {
      var o :| o in db.memos && o.author != uid && m == Detach(o, uid, gone);
    }
    forall d | d in r.departments ensures d.director != Some(uid) {
      var i :| 0 <= i < |r.departments| && r.departments[i] == d;
    }
  }

  /** Deleting user `uid` keeps every other user id and every department id. */
  lemma DeleteUserKeepsOtherIds(db: Db, uid: UserId)
    ensures UserIdSet(DeleteUser(db, uid)) == UserIdSet(db) - {uid}
    ensures DeptIdSet(DeleteUser(db, uid)) == DeptIdSet(db)
  {
    var r := DeleteUser(db, uid);
    forall x | x in DeptIdSet(db) ensures x in DeptIdSet(r) {
      var i :| 0 <= i < |db.departments| && db.departments[i].id == x;
      assert r.departments[i].id == x;
    }
    forall x | x in DeptIdSet(r) ensures x in DeptIdSet(db) {
      var i :| 0 <= i < |r.departments| && r.departments[i].id == x;
      assert db.departments[i].id == x;
    }
  }

  /** Deleting user `uid` keeps the ids of the memos it did not write. */
  lemma DeleteUserKeepsOtherMemos(db: Db, uid: UserId)
    ensures MemoIdSet(db) - AuthoredBy(db, uid) <= MemoIdSet(DeleteUser(db, uid))
  {
    var gone := AuthoredBy(db, uid);
    var r := DeleteUser(db, uid);
    forall x | x in MemoIdSet(db) - gone ensures x in MemoIdSet(r) {
      var o :| o in db.memos && o.id == x;
      assert o.author != uid;
      assert Detach(o, uid, gone) in r.memos;
    }
  }

  /** Detaching a memo not written by the deleted user keeps its links
      within the surviving rows. */
  lemma DetachKeepsLinks(o: Memo, uid: UserId, gone: set<MemoId>, users: set<UserId>, memos: set<MemoId>,
                         users2: set<UserId>, memos2: set<MemoId>)
    requires LinksWithin(o, users, memos) && o.author != uid
    requires users - {uid} <= users2 && memos - gone <= memos2
    ensures LinksWithin(Detach(o, uid, gone), users2, memos2)
  {
    var m := Detach(o, uid, gone);
    assert o.author in users - {uid};
    if m.approver.Some? {
      assert m.approver.value in users - {uid};
    }
    forall x | x in m.recipients ensures x in users2 {
      assert x in o.recipients && x != uid;
      assert x in users - {uid};
    }
    if m.parentMemo.Some? {
      assert m.parentMemo.value in memos - gone;
    }
  }

  /** Deleting a user keeps the unique constraints: the remaining accounts
      and the departments keep their keys. */
  lemma DeleteUserKeepsKeys(db: Db, uid: UserId)
    requires Keys(db)
    ensures Keys(DeleteUser(db, uid))
  {
    var r := DeleteUser(db, uid);
    RemainingUsersUnique(db.users, uid);
    assert r.users == Filter(db.users, (u: User) => u.id != uid);
    HeadlessKeepsKeys(db.departments, r.departments, uid);
  }

  /** Dropping one account keeps the others' keys distinct. */
  lemma RemainingUsersUnique(users: seq<User>, uid: UserId)
    requires UsersUnique(users)
    ensures UsersUnique(Filter(users, (u: User) => u.id != uid))
  {
    var distinct := (a: User, b: User) => a.id != b.id && a.username != b.username && a.email != b.email;
    FilterKeepsPairwise(users, (u: User) => u.id != uid, distinct);
  }

  /** Clearing a director keeps the departments' keys. */
  lemma HeadlessKeepsKeys(depts: seq<Departamento>, after: seq<Departamento>, uid: UserId)
    requires DepartmentsUnique(depts)
    requires |after| == |depts| && forall i :: 0 <= i < |depts| ==> after[i] == Headless(depts[i], uid)
    ensures DepartmentsUnique(after)
  {
    forall i, j | 0 <= i < j < |after|
      ensures after[i].id != after[j].id && after[i].nombre != after[j].nombre && after[i].prefijo != after[j].prefijo
    {
      assert after[i] == Headless(depts[i], uid) && after[j] == Headless(depts[j], uid);
    }
  }

  /** Deleting a user keeps the keys and leaves no dangling reference behind. */
  lemma DeleteUserPreservesIntegrity(db: Db, uid: UserId)
    requires Integrity(db)
    ensures Integrity(DeleteUser(db, uid))
  {
    DeleteUserKeepsKeys(db, uid);
    var gone := AuthoredBy(db, uid);
    var r := DeleteUser(db, uid);
    DeleteUserKeepsOtherIds(db, uid);
    DeleteUserKeepsOtherMemos(db, uid);
    var users, memos, users2, memos2 := UserIdSet(db), MemoIdSet(db), UserIdSet(r), MemoIdSet(r);
    forall m | m in r.memos ensures MemoLinksValid(r, m) {
      var o :| o in db.memos && o.author != uid && m == Detach(o, uid, gone);
      assert MemoLinksValid(db, o);
      DetachKeepsLinks(o, uid, gone, users, memos, users2, memos2);
    }
    forall a | a in r.attachments ensures a.memo in MemoIdSet(r) && a.uploadedBy in UserIdSet(r) {
      assert a in db.attachments;
      assert a.memo in memos - gone;
      assert a.uploadedBy in users - {uid};
    }
    forall d | d in r.departments ensures d.director.Some? ==> d.director.value in UserIdSet(r) {
      var i :| 0 <= i < |r.departments| && r.departments[i] == d;
      assert db.departments[i] in db.departments;
    }
    forall u | u in r.users ensures u.departamento.Some? ==> u.departamento.value in DeptIdSet(r) {
      assert u in db.users;
    }
  }

  /** A user that outlives its department loses the link. */
  function Unassigned(u: User, did: DeptId): User {
    if u.departamento == Some(did) then u.(departamento := None) else u
  }

  /** Deleting department `did`: its members keep their accounts with the
      department link nulled; memos and attachments are untouched. */
  function DeleteDepartment(db: Db, did: DeptId): (r: Db)
    ensures forall d :: d in r.departments <==> d in db.departments && d.id != did
    ensures forall u :: u in r.users ==> u.departamento != Some(did)
    ensures |r.users| == |db.users|
    ensures forall i :: 0 <= i < |db.users| ==> r.users[i] == Unassigned(db.users[i], did)
    ensures r.memos == db.memos && r.attachments == db.attachments
  {
    db.(users := MapSeq(db.users, (u: User) => Unassigned(u, did)),
        departments := Filter(db.departments, (d: Departamento) => d.id != did))
  }

  /** Deleting a department keeps the unique constraints: the remaining
      departments and the accounts keep their keys. */
  lemma DeleteDepartmentKeepsKeys(db: Db, did: DeptId)
    requires Keys(db)
    ensures Keys(DeleteDepartment(db, did))
  {
    var r := DeleteDepartment(db, did);
    var distinct := (a: Departamento, b: Departamento) =>
      a.id != b.id && a.nombre != b.nombre && a.prefijo != b.prefijo;
    FilterKeepsPairwise(db.departments, (d: Departamento) => d.id != did, distinct);
    assert r.departments == Filter(db.departments, (d: Departamento) => d.id != did);
    forall i, j | 0 <= i < j < |r.users|
      ensures r.users[i].id != r.users[j].id && r.users[i].username != r.users[j].username
              && r.users[i].email != r.users[j].email
    {
      assert r.users[i] == Unassigned(db.users[i], did);
      assert r.users[j] == Unassigned(db.users[j], did);
    }
  }

  /** Deleting a department keeps the keys and leaves no dangling reference behind. */
  lemma DeleteDepartmentPreservesIntegrity(db: Db, did: DeptId)
    requires Integrity(db)
    ensures Integrity(DeleteDepartment(db, did))
  {
    DeleteDepartmentKeepsKeys(db, did);
    var r := DeleteDepartment(db, did);
    assert UserIdSet(r) == UserIdSet(db) by {
      forall x | x in UserIdSet(db) ensures x in UserIdSet(r) {
        var i :| 0 <= i < |db.users| && db.users[i].id == x;
        assert r.users[i].id == x;
      }
      forall x | x in UserIdSet(r) ensures x in UserIdSet(db) {
        var i :| 0 <= i < |r.users| && r.users[i].id == x;
        assert db.users[i].id == x;
      }
    }
    assert DeptIdSet(db) - {did} <= DeptIdSet(r);
    forall m | m in r.memos ensures MemoLinksValid(r, m) {
      assert MemoLinksValid(db, m);
    }
    forall u | u in r.users ensures u.departamento.Some? ==> u.departamento.value in DeptIdSet(r) {
      var i :| 0 <= i < |r.users| && r.users[i] == u;
      assert db.users[i] in db.users;
    }
  }
}

=== FILE: text.dfy ===
/** The string operations the memo workflow relies on: Python's `str.strip()`
    (with Python's notion of whitespace) and lower-casing of file extensions. */
module Text {

  /** Python's `str.isspace()` for one code point: the ASCII controls
      TAB..CR and FS..US, SPACE, NEL, NBSP and the Unicode space separators. */
  predicate IsSpace(c: char) {
    var n := c as int;
    || n == 0x20
    || 0x09 <= n <= 0x0D
    || 0x1C <= n <= 0x1F
    || n == 0x85
    || n == 0xA0
    || n == 0x1680
    || 0x2000 <= n <= 0x200A
    || n == 0x2028
    || n == 0x2029
    || n == 0x202F
    || n == 0x205F
    || n == 0x3000
  }

  predicate AllSpace(s: string) {
    forall i :: 0 <= i < |s| ==> IsSpace(s[i])
  }

  /** Neither end of `s` is whitespace: the shape of every `strip()` result. */
  predicate IsStripped(s: string) {
    |s| == 0 || (!IsSpace(s[0]) && !IsSpace(s[|s| - 1]))
  }

  /** `s.lstrip()`: drops the leading whitespace and keeps the rest intact. */
  function StripStart(s: string): (r: string)
    ensures |r| <= |s|
    ensures r == s[|s| - |r|..]
    ensures AllSpace(s[..|s| - |r|])
    ensures |r| == 0 || !IsSpace(r[0])
    decreases |s|
  {
    if |s| > 0 && IsSpace(s[0]) then
      var r := StripStart(s[1..]);
      var k := |s| - |r|;
      assert s[1..][k - 1..] == s[k..];
      assert forall i :: 1 <= i < k ==> s[..k][i] == s[1..][..k - 1][i - 1];
      r
    else s
  }

  /** `s.rstrip()`: drops the trailing whitespace and keeps the rest intact. */
  function StripEnd(s: string): (r: string)
    ensures |r| <= |s|
    ensures r == s[..|r|]
    ensures AllSpace(s[|r|..])
    ensures |r| == 0 || !IsSpace(r[|r| - 1])
    decreases |s|
  {
    if |s| > 0 && IsSpace(s[|s| - 1]) then
      var r := StripEnd(s[..|s| - 1]);
      assert s[..|s| - 1][..|r|] == s[..|r|];
      assert forall i :: 0 <= i < |s| - 1 - |r| ==> s[|r|..][i] == s[..|s| - 1][|r|..][i];
      r
    else s
  }

  /** `s.strip()`: the infix of `s` left by removing only whitespace from
      both ends, which neither starts nor ends with whitespace. */
  function Strip(s: string): (r: string)
    ensures IsStripped(r)
    ensures |r| <= |s|
    ensures |r| == 0 <==> AllSpace(s)
    ensures IsStripped(s) ==> r == s
    ensures exists i, j :: 0 <= i <= j <= |s| && r == s[i..j] && AllSpace(s[..i]) && AllSpace(s[j..])
  {
    var a := StripStart(s);
    var r := StripEnd(a);
    StripInfix(s, a, r);
    StripShape(a, r);
    StripEmpty(s, a, r);
    StripKeepsStripped(s, a, r);
    r
  }

  /** The pieces `Strip` removes are whitespace on either side of its result. */
  lemma StripInfix(s: string, a: string, r: string)
    requires |a| <= |s| && a == s[|s| - |a|..] && AllSpace(s[..|s| - |a|])
    requires |r| <= |a| && r == a[..|r|] && AllSpace(a[|r|..])
    ensures var i := |s| - |a|;
      r == s[i..i + |r|] && AllSpace(s[..i]) && AllSpace(s[i + |r|..])
  {
    var i, n := |s| - |a|, |r|;
    assert s[i..][..n] == s[i..i + n];
    assert s[i..][n..] == s[i + n..];
  }

  /** Neither end of the result is whitespace. */
  lemma StripShape(a: string, r: string)
    requires |a| == 0 || !IsSpace(a[0])
    requires r == StripEnd(a)
    ensures IsStripped(r)
  {
    if |r| > 0 { assert r[0] == a[0]; }
  }

  /** The result is empty exactly for an all-whitespace input. */
  lemma StripEmpty(s: string, a: string, r: string)
    requires a == StripStart(s) && r == StripEnd(a)
    ensures |r| == 0 <==> AllSpace(s)
  {
    if |r| == 0 {
      assert a[|r|..] == a;
      assert s == s[..|s| - |a|] + a;
    } else {
      assert r[0] == a[0] == s[|s| - |a|];
    }
  }

  /** An input without whitespace at either end comes back unchanged. */
  lemma StripKeepsStripped(s: string, a: string, r: string)
    requires a == StripStart(s) && r == StripEnd(a)
    ensures IsStripped(s) ==> r == s
  {
    if IsStripped(s) && |s| > 0 {
      assert a == s;
      assert r == a;
    }
  }

  /** The ASCII lower-case of one character; every other character is kept. */
  function LowerChar(c: char): char {
    if 'A' <= c <= 'Z' then (c as int + 32) as char else c
  }

  /** `s.lower()` restricted to ASCII letters. */
  function Lower(s: string): (r: string)
    ensures |r| == |s|
    ensures forall i :: 0 <= i < |s| ==> r[i] == LowerChar(s[i])
  {
    seq(|s|, i requires 0 <= i < |s| => LowerChar(s[i]))
  }

  /** Lower-casing twice is lower-casing once. */
  lemma LowerIdempotent(s: string)
    ensures Lower(Lower(s)) == Lower(s)
  {
    assert forall i :: 0 <= i < |s| ==> LowerChar(LowerChar(s[i])) == LowerChar(s[i]);
  }
}

=== FILE: visibility.dfy ===
/** Which memos a caller can reach: the viewset's queryset, which every
    detail action goes through before it looks at the memo. */
module Visibility {
  import opened Common
  import opened Accounts
  import opened Memos

  /** The link between a user and a memo that each role's filters use. */
  predicate RoleLink(u: User, m: Memo) {
    match u.role
    case AreaUser => u.id in m.recipients
    case Director => m.approver == Some(u.id)
    case SecondaryUser => m.author == u.id
    case Admin => false
  }

  /** The queryset without a (recognised) status parameter. */
  predicate DefaultVisible(u: User, m: Memo) {
    match u.role
    case SecondaryUser => m.author == u.id
    case Director =>
      m.approver == Some(u.id) || (m.status == PendingApproval && m.departamento == u.departamento)
    case AreaUser =>
      (u.id in m.recipients && (m.status == Approved || m.status == Distribuido)) || m.author == u.id
    case Admin => false
  }

  /** The status a `status` query parameter narrows to for this role, when
      that parameter/role pair has its own filter; otherwise the default
      queryset applies. */
  function Narrowing(u: User, param: Option<string>): Option<Status> {
    if param == Some(Name(Draft)) && u.role == SecondaryUser then Some(Draft)
    else if param == Some(Name(PendingApproval)) && u.role == Director then Some(PendingApproval)
    else if param == Some(Name(Approved)) && u.role != Admin then Some(Approved)
    else if param == Some(Name(Distribuido)) && u.role != Admin then Some(Distribuido)
    else if param == Some(Name(Rejected)) && u.role == SecondaryUser then Some(Rejected)
    else if param == Some(Name(ModificacionSolicitada)) && u.role == SecondaryUser then Some(ModificacionSolicitada)
    else None
  }

  /** `m` is in the queryset of `u` for the given `status` parameter. */
  predicate Visible(u: User, param: Option<string>, m: Memo) {
    match Narrowing(u, param)
    case Some(s) => m.status == s && RoleLink(u, m)
    case None => DefaultVisible(u, m)
  }

  /** Whether the row pairing `m` with recipient `rec` passes the filter of
      `u`'s queryset, written as the database evaluates it. Only the
      AREA_USER filters go through the recipients table; for the other roles
      `rec` plays no part. */
  predicate RowSelected(u: User, param: Option<string>, m: Memo, rec: Option<UserId>) {
    match Narrowing(u, param)
    case Some(s) =>
      && m.status == s
      && (match u.role
          case AreaUser => rec == Some(u.id)
          case Director => m.approver == Some(u.id)
          case SecondaryUser => m.author == u.id
          case Admin => false)
    case None =>
      match u.role
      case SecondaryUser => m.author == u.id
      case Director => m.approver == Some(u.id) || (m.status == PendingApproval && m.departamento == u.departamento)
      case AreaUser => (rec == Some(u.id) && (m.status == Approved || m.status == Distribuido)) || m.author == u.id
      case Admin => false
  }

  /** How many of the join rows pairing `m` with each of `rs` pass the filter. */
  function SelectedJoinRows(u: User, param: Option<string>, m: Memo, rs: seq<UserId>): (n: nat)
    ensures n <= |rs|
  {
    if rs == [] then 0
    else (if RowSelected(u, param, m, Some(rs[0])) then 1 else 0) + SelectedJoinRows(u, param, m, rs[1..])
  }

  /** When every join row passes, all of them are counted. */
  lemma {:induction false} AllJoinRowsSelected(u: User, param: Option<string>, m: Memo, rs: seq<UserId>)
    requires forall x :: x in rs ==> RowSelected(u, param, m, Some(x))
    ensures SelectedJoinRows(u, param, m, rs) == |rs|
    decreases |rs|
  {
    if rs != [] {
      var x := rs[0];
      assert x in rs;
      assert RowSelected(u, param, m, Some(x));
      assert forall x :: x in rs[1..] ==> x in rs;
      AllJoinRowsSelected(u, param, m, rs[1..]);
      assert SelectedJoinRows(u, param, m, rs) == 1 + SelectedJoinRows(u, param, m, rs[1..]);
    }
  }

  /** When only the caller's own join row can pass, and the caller is listed
      at most once, at most that one row is counted. */
  lemma {:induction false} OwnJoinRowSelected(u: User, param: Option<string>, m: Memo, rs: seq<UserId>)
    requires NoDuplicates(rs)
    requires forall x :: RowSelected(u, param, m, Some(x)) ==> x == u.id
    ensures SelectedJoinRows(u, param, m, rs) ==
              if u.id in rs && RowSelected(u, param, m, Some(u.id)) then 1 else 0
    decreases |rs|
  {
    if rs != [] {
      assert NoDuplicates(rs[1..]) by {
        forall i, j | 0 <= i < j < |rs| - 1 ensures rs[1..][i] != rs[1..][j] {
          assert rs[i + 1] != rs[j + 1];
        }
      }
      OwnJoinRowSelected(u, param, m, rs[1..]);
      assert u.id in rs <==> rs[0] == u.id || u.id in rs[1..];
      if rs[0] == u.id {
        assert u.id !in rs[1..] by {
          forall k | 0 <= k < |rs| - 1 ensures rs[1..][k] != u.id {
            assert rs[k + 1] != rs[0];
          }
        }
      }
    }
  }

  /** The default AREA_USER filter joins the recipients table inside an OR
      without removing duplicates, so a memo the caller wrote comes back
      once per recipient. */
  predicate RepeatedRows(u: User, param: Option<string>, m: Memo) {
    Narrowing(u, param).None? && u.role == AreaUser && m.author == u.id && |m.recipients| >= 2
  }

  /** The number of rows the queryset of `u` holds for memo `m`, which
      `get_object` expects to be exactly one. An AREA_USER filter joins each
      memo with its recipients (an outer join in the default filter, so a
      memo without recipients keeps one row with no recipient); the other
      filters keep one row per memo. */
  function QueryRows(u: User, param: Option<string>, m: Memo): (n: nat)
    ensures n >= 1 <==> Visible(u, param, m)
    ensures n >= 2 <==> RepeatedRows(u, param, m)
    ensures Narrowing(u, param).None? && u.role == AreaUser && m.author == u.id ==>
              n == if |m.recipients| == 0 then 1 else |m.recipients|
  {
    if u.role != AreaUser || |m.recipients| == 0 then
      if RowSelected(u, param, m, None) then 1 else 0
    else
      if Narrowing(u, param).None? && m.author == u.id then
        AllJoinRowsSelected(u, param, m, m.recipients);
        SelectedJoinRows(u, param, m, m.recipients)
      else
        OwnJoinRowSelected(u, param, m, m.recipients);
        SelectedJoinRows(u, param, m, m.recipients)
  }

  /** A narrowing filter pins the memo's status to the one the parameter
      names, and the parameter names it. */
  lemma NarrowingPinsStatus(u: User, param: Option<string>, m: Memo)
    requires Narrowing(u, param).Some?
    ensures param == Some(Name(Narrowing(u, param).value))
    ensures Visible(u, param, m) ==> m.status == Narrowing(u, param).value
  {
  }

  /** A status parameter only ever narrows: whatever a caller reaches with a
      parameter, it also reaches without one. */
  lemma ParamOnlyNarrows(u: User, param: Option<string>, m: Memo)
    ensures Visible(u, param, m) ==> Visible(u, None, m)
  {
    if Visible(u, param, m) && Narrowing(u, param).Some? {
      assert RoleLink(u, m);
      match u.role
      case AreaUser => assert m.status == Approved || m.status == Distribuido;
      case Director =>
      case SecondaryUser =>
      case Admin =>
    }
  }

  /** An ADMIN reaches no memo at all. */
  lemma AdminReachesNothing(u: User, param: Option<string>, m: Memo)
    requires u.role == Admin
    ensures !Visible(u, param, m)
  {
  }

  /** A SECONDARY_USER reaches only the memos it wrote, whatever the
      parameter; an AREA_USER reaches only memos it wrote or APPROVED /
      DISTRIBUIDO memos it receives. */
  lemma ReachByRole(u: User, param: Option<string>, m: Memo)
    ensures u.role == SecondaryUser && Visible(u, param, m) ==> m.author == u.id
    ensures u.role == AreaUser && Visible(u, param, m) ==>
              m.author == u.id || (u.id in m.recipients && (m.status == Approved || m.status == Distribuido))
    ensures u.role == Director && Visible(u, param, m) ==>
              m.approver == Some(u.id) || (m.status == PendingApproval && m.departamento == u.departamento)
  {
    ParamOnlyNarrows(u, param, m);
  }
}

=== FILE: workflow.dfy ===
/** The approval workflow: submitting a draft, and the approver's three
    decisions. Each endpoint admits any logged-in caller whose queryset holds
    the memo (no role is checked), then makes the action's own checks; the
    first failed check is the answer and nothing is saved. On success the
    result is the memo as saved. */
module Workflow {
  import opened Common
  import Text
  import opened Accounts
  import opened Memos
  import opened Services
  import opened Errors
  import opened Permissions
  import opened Visibility
  import opened Dispatch

  /** The legal status changes of the workflow actions. */
  predicate Step(from: Status, to: Status) {
    || (from == Draft && to == PendingApproval)
    || (from == ModificacionSolicitada && to == PendingApproval)
    || (from == PendingApproval && (to == Approved || to == Rejected || to == ModificacionSolicitada))
  }

  /** The minimum body length after stripping. */
  const MinBodyLength: nat := 10

  /** A missing or empty correlative number counts as absent. */
  predicate HasNumber(m: Memo) {
    m.numeroCorrelativo.Some? && m.numeroCorrelativo.value != []
  }

  /** Everything submit demands, in no particular order. */
  predicate SubmitReady(u: User, m: Memo, lim: Limits, h: Helpers) {
    && DraftLike(m.status)
    && m.author == u.id
    && |Text.Strip(m.subject)| > 0
    && |Text.Strip(m.body)| >= MinBodyLength
    && m.approver.Some?
    && 1 <= |m.recipients| <= lim.maxRecipients
    && (!HasNumber(m) && m.departamento.Some? ==> h.correlativo(m.departamento.value).Some?)
  }

  /** submit's checks before the number generator, in order; the first
      that fails is the answer. */
  function SubmitRefusal(u: User, m: Memo, lim: Limits): (e: Option<Error>)
    ensures e.None? <==>
              && DraftLike(m.status) && m.author == u.id
              && |Text.Strip(m.subject)| > 0 && |Text.Strip(m.body)| >= MinBodyLength
              && m.approver.Some? && 1 <= |m.recipients| <= lim.maxRecipients
    ensures e == Some(Forbidden(NotAuthor)) <==> DraftLike(m.status) && m.author != u.id
    ensures !DraftLike(m.status) ==> e == Some(WrongState(m.status))
  {
    if !DraftLike(m.status) then Some(WrongState(m.status))
    else if m.author != u.id then Some(Forbidden(NotAuthor))
    else if |Text.Strip(m.subject)| == 0 then Some(Invalid(SubjectRequired))
    else if |Text.Strip(m.body)| < MinBodyLength then Some(Invalid(BodyTooShort))
    else if m.approver.None? then Some(Invalid(NoApproverAssigned))
    else if |m.recipients| == 0 then Some(Invalid(NoRecipientsAssigned))
    else if |m.recipients| > lim.maxRecipients then Some(Invalid(TooManyRecipients))
    else None
  }

  /** The memo as submit saves it, with the given correlative number. */
  function Submitted(m: Memo, number: Option<string>): Memo {
    var comments := if m.status == ModificacionSolicitada then None else m.modificacionSolicitada;
    m.(status := PendingApproval, numeroCorrelativo := number, modificacionSolicitada := comments)
  }

  /** submit, once the caller reached the memo. */
  function Submit(u: User, m: Memo, lim: Limits, h: Helpers): (r: Result<Memo, Error>)
    ensures r.Success? <==> SubmitReady(u, m, lim, h)
    ensures r == Failure(Forbidden(NotAuthor)) <==> DraftLike(m.status) && m.author != u.id
    ensures r.Success? ==> r.value.status == PendingApproval
    ensures r.Success? && HasNumber(m) ==> r.value.numeroCorrelativo == m.numeroCorrelativo
    ensures r.Success? && !HasNumber(m) && m.departamento.Some? ==>
              r.value.numeroCorrelativo == h.correlativo(m.departamento.value)
    ensures r.Success? && m.departamento.None? ==> r.value.numeroCorrelativo == m.numeroCorrelativo
    ensures r.Success? ==>
              r.value.modificacionSolicitada ==
                (if m.status == ModificacionSolicitada then None else m.modificacionSolicitada)
    ensures r.Success? ==>
              r.value.(status := m.status, numeroCorrelativo := m.numeroCorrelativo,
                       modificacionSolicitada := m.modificacionSolicitada) == m
  {
    match SubmitRefusal(u, m, lim)
    case Some(e) => Failure(e)
    case None =>
      if !HasNumber(m) && m.departamento.Some? then
        match h.correlativo(m.departamento.value)
        case None => Failure(CorrelativeFailed)
        case Some(n) => Success(Submitted(m, Some(n)))
      else Success(Submitted(m, m.numeroCorrelativo))
  }

  /** submit makes its checks in this order and answers with the first one
      that fails: state, author, subject, ... */
  lemma SubmitChecksInOrder(u: User, m: Memo, lim: Limits, h: Helpers)
    ensures var r := Submit(u, m, lim, h);
      && (!DraftLike(m.status) ==> r == Failure(WrongState(m.status)))
      && (DraftLike(m.status) && m.author != u.id ==> r == Failure(Forbidden(NotAuthor)))
      && (DraftLike(m.status) && m.author == u.id && Text.AllSpace(m.subject) ==>
            r == Failure(Invalid(SubjectRequired)))
  {
  }

  /** ... then body, approver, recipients, and finally the number
      generator: each later error implies the earlier checks passed. */
  lemma SubmitLaterChecksInOrder(u: User, m: Memo, lim: Limits, h: Helpers)
    ensures var r := Submit(u, m, lim, h);
      var first := DraftLike(m.status) && m.author == u.id && |Text.Strip(m.subject)| > 0;
      && (r == Failure(Invalid(BodyTooShort)) ==> first && |Text.Strip(m.body)| < MinBodyLength)
      && (r == Failure(Invalid(NoApproverAssigned)) ==>
            first && |Text.Strip(m.body)| >= MinBodyLength && m.approver.None?)
      && (r == Failure(Invalid(NoRecipientsAssigned)) ==>
            first && |Text.Strip(m.body)| >= MinBodyLength && m.approver.Some? && |m.recipients| == 0)
      && (r == Failure(Invalid(TooManyRecipients)) ==>
            first && |Text.Strip(m.body)| >= MinBodyLength && m.approver.Some?
            && |m.recipients| > lim.maxRecipients)
      && (r == Failure(CorrelativeFailed) ==>
            first && |Text.Strip(m.body)| >= MinBodyLength && m.approver.Some?
            && 1 <= |m.recipients| <= lim.maxRecipients)
  {
  }

  /** The submit endpoint: admission, then `Submit`. */
  function SubmitAction(req: Requester, param: Option<string>, m: Memo, lim: Limits, h: Helpers)
    : (r: Result<Memo, Error>)
    ensures !IsAuthenticated(req) ==> r == Failure(NotAuthenticated)
    ensures IsAuthenticated(req) && !Visible(req.user, param, m) ==> r == Failure(NotFound)
    ensures IsAuthenticated(req) && RepeatedRows(req.user, param, m) ==> r == Failure(ServerError)
    ensures r.Success? <==>
              FoundOnce(req, param, m) && SubmitReady(req.user, m, lim, h)
    ensures FoundOnce(req, param, m) ==> r == Submit(req.user, m, lim, h)
  {
    MemoActionsNeedOnlyTheQueryset(SubmitMemo, req, param, m);
    match AdmitOn(SubmitMemo, req, param, m)
    case Some(e) => Failure(e)
    case None => Submit(req.user, m, lim, h)
  }

  /** What approve, reject and request-modification all demand: the memo is
      pending, the caller is its assigned approver and, when the memo has a
      department, the caller belongs to it. */
  predicate MayDecide(u: User, m: Memo) {
    && m.status == PendingApproval
    && m.approver == Some(u.id)
    && (m.departamento.Some? ==> u.departamento == m.departamento)
  }

  /** The shared guard of the three decisions, checked in this order. */
  function DecisionRefusal(u: User, m: Memo): (e: Option<Error>)
    ensures e.None? <==> MayDecide(u, m)
    ensures m.status != PendingApproval ==> e == Some(WrongState(m.status))
    ensures m.status == PendingApproval && m.approver != Some(u.id) ==>
              e == Some(Forbidden(NotAssignedApprover))
    ensures e == Some(Forbidden(OtherDepartment)) ==>
              m.approver == Some(u.id) && m.departamento.Some? && u.departamento != m.departamento
  {
    if m.status != PendingApproval then Some(WrongState(m.status))
    else if m.approver != Some(u.id) then Some(Forbidden(NotAssignedApprover))
    else if m.departamento.Some? && u.departamento != m.departamento then Some(Forbidden(OtherDepartment))
    else None
  }

  /** The fields an approval writes: the approval time and, when their
      helpers succeed, the seal and the signed file. */
  predicate OnlyApprovalFieldsDiffer(m: Memo, n: Memo) {
    n.(status := m.status, approvedAt := m.approvedAt, selloDigital := m.selloDigital,
       signedFile := m.signedFile) == m
  }

  /** approve, once the caller reached the memo. The seal is built from the
      memo with its approval time set, the signed file from the sealed memo;
      a helper that raises leaves its field as it was and does not stop the
      approval. */
  function Approve(u: User, m: Memo, now: Time, h: Helpers): (r: Result<Memo, Error>)
    ensures r.Success? <==> MayDecide(u, m)
    ensures r.Failure? ==> Some(r.error) == DecisionRefusal(u, m)
    ensures r.Success? ==> r.value.status == Approved && r.value.approvedAt == Some(now)
    ensures r.Success? ==> OnlyApprovalFieldsDiffer(m, r.value)
    ensures r.Success? ==>
              r.value.selloDigital ==
                (if h.sello(m.(approvedAt := Some(now))).Some?
                 then h.sello(m.(approvedAt := Some(now))) else m.selloDigital)
    ensures r.Success? ==>
              var sealed := m.(approvedAt := Some(now), selloDigital := r.value.selloDigital);
              r.value.signedFile == (if h.signedPdf(sealed).Some? then h.signedPdf(sealed) else m.signedFile)
  {
    match DecisionRefusal(u, m)
    case Some(e) => Failure(e)
    case None =>
      var stamped := m.(approvedAt := Some(now));
      var sealed := match h.sello(stamped)
                    case Some(s) => stamped.(selloDigital := Some(s))
                    case None => stamped;
      var signed := match h.signedPdf(sealed)
                    case Some(f) => sealed.(signedFile := Some(f))
                    case None => sealed;
      Success(signed.(status := Approved))
  }

  /** reject, once the caller reached the memo; a missing reason is stored as
      the empty text. */
  function Reject(u: User, m: Memo, reason: Option<string>): (r: Result<Memo, Error>)
    ensures r.Success? <==> MayDecide(u, m)
    ensures r.Failure? ==> Some(r.error) == DecisionRefusal(u, m)
    ensures r.Success? ==> r.value.status == Rejected
    ensures r.Success? && reason.Some? ==> r.value.rejectionReason == reason
    ensures r.Success? && reason.None? ==> r.value.rejectionReason == Some("")
    ensures r.Success? ==> r.value.(status := m.status, rejectionReason := m.rejectionReason) == m
  {
    match DecisionRefusal(u, m)
    case Some(e) => Failure(e)
    case None =>
      var text := match reason case Some(t) => t case None => "";
      Success(m.(status := Rejected, rejectionReason := Some(text)))
  }

  /** solicitar_modificaciones, once the caller reached the memo: missing or
      empty comments are refused after the shared guard. */
  function RequestModification(u: User, m: Memo, comments: Option<string>): (r: Result<Memo, Error>)
    ensures r.Success? <==> MayDecide(u, m) && comments.Some? && comments.value != []
    ensures !MayDecide(u, m) ==> Some(r.error) == DecisionRefusal(u, m)
    ensures MayDecide(u, m) && (comments.None? || comments == Some([])) ==>
              r == Failure(Invalid(CommentsRequired))
    ensures r.Success? ==> r.value.status == ModificacionSolicitada
    ensures r.Success? ==> r.value.modificacionSolicitada == comments
    ensures r.Success? ==>
              r.value.(status := m.status, modificacionSolicitada := m.modificacionSolicitada) == m
  {
    match DecisionRefusal(u, m)
    case Some(e) => Failure(e)
    case None =>
      match comments
      case None => Failure(Invalid(CommentsRequired))
      case Some(c) =>
        if c == [] then Failure(Invalid(CommentsRequired))
        else Success(m.(status := ModificacionSolicitada, modificacionSolicitada := Some(c)))
  }

  /** The approve endpoint: admission, then `Approve`. */
  function ApproveAction(req: Requester, param: Option<string>, m: Memo, now: Time, h: Helpers)
    : (r: Result<Memo, Error>)
    ensures !IsAuthenticated(req) ==> r == Failure(NotAuthenticated)
    ensures IsAuthenticated(req) && !Visible(req.user, param, m) ==> r == Failure(NotFound)
    ensures IsAuthenticated(req) && RepeatedRows(req.user, param, m) ==> r == Failure(ServerError)
    ensures r.Success? <==> FoundOnce(req, param, m) && MayDecide(req.user, m)
    ensures FoundOnce(req, param, m) ==> r == Approve(req.user, m, now, h)
  {
    MemoActionsNeedOnlyTheQueryset(ApproveMemo, req, param, m);
    match AdmitOn(ApproveMemo, req, param, m)
    case Some(e) => Failure(e)
    case None => Approve(req.user, m, now, h)
  }

  /** The reject endpoint: admission, then `Reject`. */
  function RejectAction(req: Requester, param: Option<string>, m: Memo, reason: Option<string>)
    : (r: Result<Memo, Error>)
    ensures !IsAuthenticated(req) ==> r == Failure(NotAuthenticated)
    ensures IsAuthenticated(req) && !Visible(req.user, param, m) ==> r == Failure(NotFound)
    ensures IsAuthenticated(req) && RepeatedRows(req.user, param, m) ==> r == Failure(ServerError)
    ensures r.Success? <==> FoundOnce(req, param, m) && MayDecide(req.user, m)
    ensures FoundOnce(req, param, m) ==> r == Reject(req.user, m, reason)
  {
    MemoActionsNeedOnlyTheQueryset(RejectMemo, req, param, m);
    match AdmitOn(RejectMemo, req, param, m)
    case Some(e) => Failure(e)
    case None => Reject(req.user, m, reason)
  }

  /** The request-modification endpoint: admission, then `RequestModification`. */
  function RequestModificationAction(req: Requester, param: Option<string>, m: Memo, comments: Option<string>)
    : (r: Result<Memo, Error>)
    ensures !IsAuthenticated(req) ==> r == Failure(NotAuthenticated)
    ensures IsAuthenticated(req) && !Visible(req.user, param, m) ==> r == Failure(NotFound)
    ensures IsAuthenticated(req) && RepeatedRows(req.user, param, m) ==> r == Failure(ServerError)
    ensures r.Success? <==>
              FoundOnce(req, param, m) && MayDecide(req.user, m)
              && comments.Some? && comments.value != []
    ensures FoundOnce(req, param, m) ==>
              r == RequestModification(req.user, m, comments)
  {
    MemoActionsNeedOnlyTheQueryset(RequestChanges, req, param, m);
    match AdmitOn(RequestChanges, req, param, m)
    case Some(e) => Failure(e)
    case None => RequestModification(req.user, m, comments)
  }

  /** Seal, PDF or distribution failures never hold an approval back: the
      outcome and the approval fields do not depend on the helpers. */
  lemma ApprovalIndependentOfHelpers(u: User, m: Memo, now: Time, h1: Helpers, h2: Helpers)
    ensures Approve(u, m, now, h1).Success? == Approve(u, m, now, h2).Success?
    ensures Approve(u, m, now, h1).Success? ==>
              Approve(u, m, now, h1).value.(selloDigital := m.selloDigital, signedFile := m.signedFile)
              == Approve(u, m, now, h2).value.(selloDigital := m.selloDigital, signedFile := m.signedFile)
  {
  }

  /** Every successful workflow action moves the memo along a legal step. */
  lemma ActionsFollowSteps(u: User, m: Memo, lim: Limits, h: Helpers, now: Time, text: Option<string>)
    ensures Submit(u, m, lim, h).Success? ==> Step(m.status, Submit(u, m, lim, h).value.status)
    ensures Approve(u, m, now, h).Success? ==> Step(m.status, Approve(u, m, now, h).value.status)
    ensures Reject(u, m, text).Success? ==> Step(m.status, Reject(u, m, text).value.status)
    ensures RequestModification(u, m, text).Success? ==>
              Step(m.status, RequestModification(u, m, text).value.status)
  {
  }

  /** APPROVED, REJECTED and DISTRIBUIDO memos accept none of these actions;
      each refuses with the memo's state. */
  lemma FinalStatesRefuse(u: User, m: Memo, lim: Limits, h: Helpers, now: Time, text: Option<string>)
    requires m.status == Approved || m.status == Rejected || m.status == Distribuido
    ensures Submit(u, m, lim, h) == Failure(WrongState(m.status))
    ensures Approve(u, m, now, h) == Failure(WrongState(m.status))
    ensures Reject(u, m, text) == Failure(WrongState(m.status))
    ensures RequestModification(u, m, text) == Failure(WrongState(m.status))
  {
  }

  /** A correlative number, once assigned, is never replaced by any of these
      actions, and only submit ever assigns one. */
  lemma NumberNeverReplaced(u: User, m: Memo, lim: Limits, h: Helpers, now: Time, text: Option<string>)
    ensures HasNumber(m) && Submit(u, m, lim, h).Success? ==>
              Submit(u, m, lim, h).value.numeroCorrelativo == m.numeroCorrelativo
    ensures Approve(u, m, now, h).Success? ==>
              Approve(u, m, now, h).value.numeroCorrelativo == m.numeroCorrelativo
    ensures Reject(u, m, text).Success? ==>
              Reject(u, m, text).value.numeroCorrelativo == m.numeroCorrelativo
    ensures RequestModification(u, m, text).Success? ==>
              RequestModification(u, m, text).value.numeroCorrelativo == m.numeroCorrelativo
  {
  }

  /** Submit's author check is reachable: it refuses exactly a logged-in
      caller who reaches a draft-like memo without having written it. */
  lemma SubmitAuthorRefusal(req: Requester, param: Option<string>, m: Memo, lim: Limits, h: Helpers)
    ensures SubmitAction(req, param, m, lim, h) == Failure(Forbidden(NotAuthor)) <==>
              IsAuthenticated(req) && Visible(req.user, param, m) && DraftLike(m.status) && m.author != req.user.id
  {
    var r := SubmitAction(req, param, m, lim, h);
    if FoundOnce(req, param, m) {
      assert r == Submit(req.user, m, lim, h);
    } else if IsAuthenticated(req) && RepeatedRows(req.user, param, m) {
      assert r == Failure(ServerError) && m.author == req.user.id;
    }
  }

  /** Besides its author, only the DIRECTOR assigned as approver reaches a
      draft-like memo, and without a status filter that director does. */
  lemma DraftReachedByAuthorOrApprover(u: User, param: Option<string>, m: Memo)
    requires DraftLike(m.status)
    ensures Visible(u, param, m) && m.author != u.id ==> u.role == Director && m.approver == Some(u.id)
    ensures u.role == Director && m.approver == Some(u.id) ==> Visible(u, None, m)
  {
    if Visible(u, param, m) && m.author != u.id {
      ReachByRole(u, param, m);
      assert Narrowing(u, param).None?;
    }
  }

  /** The caller the author check refuses is always a DIRECTOR assigned as
      the memo's approver, and every such director who opens the memo
      without a status filter is refused by it. */
  lemma SubmitAuthorRefusalMeetsApprover(req: Requester, param: Option<string>, m: Memo, lim: Limits, h: Helpers)
    ensures SubmitAction(req, param, m, lim, h) == Failure(Forbidden(NotAuthor)) ==>
              req.user.role == Director && m.approver == Some(req.user.id)
    ensures IsDirector(req) && m.approver == Some(req.user.id) && m.author != req.user.id && DraftLike(m.status) ==>
              SubmitAction(req, None, m, lim, h) == Failure(Forbidden(NotAuthor))
  {
    SubmitAuthorRefusal(req, param, m, lim, h);
    SubmitAuthorRefusal(req, None, m, lim, h);
    if req.Member? && DraftLike(m.status) {
      DraftReachedByAuthorOrApprover(req.user, param, m);
    }
  }

  /** An approver need not be a DIRECTOR: an author who named itself
      approver of a memo without department can approve it once it is
      pending. */
  lemma SelfApprovalAdmitted(u: User, m: Memo, now: Time, h: Helpers)
    requires u.role == SecondaryUser && m.author == u.id && m.approver == Some(u.id)
    requires m.status == PendingApproval && m.departamento.None?
    ensures ApproveAction(Member(u), None, m, now, h).Success?
    ensures ApproveAction(Member(u), None, m, now, h).value.status == Approved
  {
    assert Visible(u, None, m);
  }
}
